=== FILE: README.md ===
# GrowthBook decision rules, modelled in Dafny

This project models the decision logic inside GrowthBook's experiment-results table, its
role and permission model, its feature-creation API, and two feature-page components.
The logic is modelled as Dafny datatypes, functions and methods, with proofs of what they
promise. The modules follow the source files:

- `ExperimentStats` (`experiment_stats.dfy`): the per-variation statistics record and the
  two significance rules shared by the results components. The Bayesian rule is the chance
  to win outside `[ciLower, ciUpper]`. The frequentist rule is `isStatSig` on the adjusted
  p-value, else the raw one, else 1.
- `PValueGuardrail` (`pvalue_guardrail.dfy`): the four-way guardrail status, and what the
  frequentist guardrail cell shows.
- `PercentGraph` (`percent_graph.dfy`): the bar type, the visibility and the significance
  of the per-row graph.
- `ResultsTable` (`results_table.dfy`): baseline skipping, the defaulting of missing
  statistics, the result, graph and change cells, the header, and the two tooltips.
- `Organization` (`organization.dfy`): the permission lists, the six built-in roles, the
  role lookup, the default role, and the per-user global and per-project permission maps.
  `GetUserPermissions` is an imperative method with loops, proved equal to a specification
  function.
- `UserContext` (`user_context.dfy`): the front-end users map and the `permissionsObj`
  flags, both built by loops. Also role resolution, the fallback user, the
  environment-scoped `permissionsCheck` and `getUserDisplay`.
- `PostFeature` (`post_feature.dfy`): `validateEnvKeys`, and the defaults of a new feature.
- `ExperimentRefSummary` (`experiment_ref_summary.dfy`): the chain that decides whether an
  experiment rule is skipped, rolled out or live. Also the namespace and coverage figures,
  and the value and weight served to each variation.
- `AutoGenerateMetricsButton` (`auto_generate_metrics_button.dfy`): whether the "Discover
  Metrics" button shows.
- `Options` and `Lists`: shared vocabulary. `Options` holds JavaScript's `??`, `||` and
  `!!` on optional values. `Lists` holds de-duplication through a `Set`, and the
  "assign into a map in a loop, last write wins" fold.

Modelling conventions:
- `isStatSig`, `hasEnoughData` and `isExpectedDirection` live in a module that is not part
  of this model. They are the fields of a `StatsOracles` value: arbitrary total functions
  that every lemma quantifies over.
- Probabilities, p-values and thresholds are `real`, used only in comparisons.
- `undefined` is `Option.None`.
- A property read through `undefined` throws a `TypeError` in the source. The model shows
  it as an explicit outcome: `GuardrailCell.Crashed`, `CheckOutcome.Throws`.
- Hooks, fetched data, the current time and the environment-settings helper become
  parameters.

## Model

| member | source | states |
|---|---|---|
| Lists.Dedupe | packages/back-end/src/util/organization.util.ts:97-98 | Passing a list through a `Set` leaves no duplicate and keeps exactly the elements of the list, never lengthening it |
| Lists.DedupeKeepsFirstOccurrenceOrder | packages/back-end/src/util/organization.util.ts:97-98 | De-duplicating a shorter prefix gives a prefix of de-duplicating a longer one, so the elements keep the order of their first occurrence |
| Lists.DedupeOfDistinct | packages/back-end/src/util/organization.util.ts:97-98 | A list without duplicates comes back unchanged, order included |
| Lists.AssignAllKeys | packages/back-end/src/util/organization.util.ts:73-87 | A map filled by assigning each element under its key has exactly the keys of the elements |
| Lists.AssignAllLast | packages/back-end/src/util/organization.util.ts:73-87 | Under each key the map holds the value of the last element with that key |
| Organization.Index | packages/back-end/src/util/organization.util.ts:48-52 | Every permission sits at a position of `ALL_PERMISSIONS` |
| Organization.AllPermissionsShape | packages/back-end/src/util/organization.util.ts:10-52 | `ALL_PERMISSIONS` is the 16 global, then 10 project-scoped, then 3 environment-scoped permissions, 29 pairwise distinct names covering every permission |
| Organization.GetRoles | packages/back-end/src/util/organization.util.ts:101-178 | The roles are readonly, collaborator, engineer, analyst, experimenter and admin, in that order |
| Organization.GetRolesIgnoresOrganization | packages/back-end/src/util/organization.util.ts:101-103 | Every organization gets the same role list |
| Organization.FindRole | packages/back-end/src/util/organization.util.ts:96 | `find` returns the first role with the id, and nothing exactly when no role has it |
| Organization.FindRoleInTable | packages/back-end/src/util/organization.util.ts:101-178 | Only designer and developer have no entry in the table; every other role gets the list written beside it |
| Organization.ReadonlyHasNoPermission | packages/back-end/src/util/organization.util.ts:104-108 | The readonly role has no permission |
| Organization.AdminHasEveryPermission | packages/back-end/src/util/organization.util.ts:171-176 | The admin role has `ALL_PERMISSIONS`, hence every permission |
| Organization.UnlistedRolesHaveNoPermission | packages/back-end/src/util/organization.util.ts:91-99 | Designer and developer, having no definition, get no permission |
| Organization.EveryRoleWithinAllPermissions | packages/back-end/src/util/organization.util.ts:101-178 | No role lists a permission outside `ALL_PERMISSIONS`; this follows from `ALL_PERMISSIONS` naming every permission, not from the role lists |
| Organization.ExperimenterTableCovers | packages/back-end/src/util/organization.util.ts:114-170 | The experimenter list contains the engineer and analyst lists, plus createSegments, which neither has |
| Organization.ExperimenterCombinesEngineerAndAnalyst | packages/back-end/src/util/organization.util.ts:114-170 | "Manage features AND Analyze experiments": the experimenter role holds every engineer and analyst permission, plus createSegments, and nothing else |
| Organization.CollaboratorBelowEveryEditingRole | packages/back-end/src/util/organization.util.ts:109-176 | Engineer, analyst, experimenter and admin each hold all collaborator permissions |
| Organization.RoleTablesHaveNoDuplicates | packages/back-end/src/util/organization.util.ts:101-178 | No role lists a permission twice |
| Organization.GetPermissionsByRole | packages/back-end/src/util/organization.util.ts:91-99 | The result has no duplicates and holds exactly the role's permissions, so none for a role without an entry |
| Organization.PermissionsByRoleAreTheTable | packages/back-end/src/util/organization.util.ts:91-99 | Because no table lists a permission twice, the result is the table's list in its own order |
| Organization.DefaultRoleIsConfiguredOrCollaborator | packages/back-end/src/util/organization.util.ts:180-190 | With a configured default role, exactly that role and restriction. Without one, the collaborator's permission list, not limited by environment and with no environments |
| Organization.PermissionFlagsAt | packages/back-end/src/util/organization.util.ts:65-69 | A flag is written for every permission, true exactly when the role's table entry lists it |
| Organization.WritePermissionFlags | packages/back-end/src/util/organization.util.ts:65-69 | The loop over `ALL_PERMISSIONS` writes one boolean per permission, whether the role lists it; proved against the flag map |
| Organization.GetUserPermissions | packages/back-end/src/util/organization.util.ts:54-89 | The loops build the global entry and one entry per project role, equal to the per-user permission specification. The global entry is the corrected one (see Findings), read from the member's own restriction |
| Organization.GlobalFlagsFollowRole | packages/back-end/src/util/organization.util.ts:55-69 | Every permission has a global flag; it is true iff the member's role lists it; readonly, designer and developer get all false, admin all true |
| Organization.ProjectEntriesPerProject | packages/back-end/src/util/organization.util.ts:71-87 | There is one project entry per distinct project named by the member's project roles |
| Organization.LastProjectRoleWins | packages/back-end/src/util/organization.util.ts:73-87 | The last project role for a project decides its entry. Its flags follow that role; the limit defaults to false and the environments to `[]` |
| Organization.GlobalPermissionSetAsWritten | packages/back-end/src/util/organization.util.ts:59-63 | As written, the global entry always has no environments and no limit, beside the role's flags |
| Organization.GlobalPermissionSet | packages/back-end/src/util/organization.util.ts:59-63 | The intended global entry carries the member's own limit and environments (defaults false and `[]`) beside the same flags |
| Organization.GlobalEntryDropsMemberRestriction | packages/back-end/src/util/organization.util.ts:59-63 | A member limited to production gets an unlimited global entry as written, and a production-limited one as intended |
| Organization.AsWrittenAgreesOnlyWithoutRestriction | packages/back-end/src/util/organization.util.ts:59-63 | The written and intended entries share the flags, and are equal exactly when the member sets no limit and no environments |
| ExperimentStats.PValueOf | packages/front-end/components/Experiment/PValueGuardrailResult.tsx:42-45 | The p-value tested is the adjusted one, else the raw one, else 1 |
| ExperimentStats.PValueIsReportedOrOne | packages/front-end/components/Experiment/PValueGuardrailResult.tsx:42-45 | The tested p-value is one the record reports or 1, so it lies in [0, 1] when the reported ones do |
| ExperimentStats.ChanceToWinOutsideInterval | packages/front-end/components/Experiment/ResultsTable.tsx:353-357 | With `ciLower <= ciUpper`, Bayesian significance is the chance to win (0 when missing) lying outside `[ciLower, ciUpper]` |
| ExperimentStats.MissingChanceToWinIsSignificant | packages/front-end/components/Experiment/ResultsTable.tsx:355-356 | A missing chance to win counts as 0, which is significant whenever `ciLower > 0` |
| PValueGuardrail.GetPValueGuardrailStatus | packages/front-end/components/Experiment/PValueGuardrailResult.tsx:17-31 | ok iff expected and significant; warning iff neither; danger iff unexpected and significant; non-significant iff expected and not significant |
| PValueGuardrail.StatusRoundTrip | packages/front-end/components/Experiment/PValueGuardrailResult.tsx:17-31 | The status and the (direction, significance) pair determine each other, both ways |
| PValueGuardrail.StatusIcon | packages/front-end/components/Experiment/PValueGuardrailResult.tsx:56-61 | Each status has its own icon (check, exclamation triangle, exclamation, question), so the icon identifies the status |
| PValueGuardrail.DirectionLabel | packages/front-end/components/Experiment/PValueGuardrailResult.tsx:68-69 | The caption is one of "Better", "Better?", "Worse", "Worse?" |
| PValueGuardrail.DirectionLabelDecodes | packages/front-end/components/Experiment/PValueGuardrailResult.tsx:68-69 | The caption starts "Better" iff the direction is expected, and ends in "?" iff the result is not significant |
| PValueGuardrail.PValueGuardrailResults | packages/front-end/components/Experiment/PValueGuardrailResult.tsx:38-87 | Missing stats crash at the p-value read. Otherwise the status comes from direction and p-value significance; the verdict (icon, caption, p-value) shows iff there is enough data, and only "not enough data" shows otherwise |
| PValueGuardrail.VerdictAgreesWithStatus | packages/front-end/components/Experiment/PValueGuardrailResult.tsx:46-69 | With enough data, the caption says "Better" exactly for ok and non-significant, and ends in "?" exactly for warning and non-significant |
| PercentGraph.ChooseBarType | packages/front-end/components/Experiment/PercentGraph.tsx:40 | An explicit bar type wins; otherwise violin iff the uplift names a distribution, else pill |
| PercentGraph.NoGraphWithoutData | packages/front-end/components/Experiment/PercentGraph.tsx:42-63 | The graph shows iff a metric is given and there is enough data. Otherwise it is axis-only with interval `[0, 0]`, no uplift, no expectation and no significance |
| PercentGraph.SignificanceRule | packages/front-end/components/Experiment/PercentGraph.tsx:43-52 | With a graph, a new-UI pill uses the p-value test and every other bar, old-UI pills included, the chance-to-win test |
| PercentGraph.FillAndInverse | packages/front-end/components/Experiment/PercentGraph.tsx:62-68 | The fill is "significant" iff new UI, else gradient; `inverse` is the metric's flag, false without a metric |
| ResultsTable.Significant | packages/front-end/components/Experiment/ResultsTable.tsx:353-362 | The baseline is never marked significant |
| ResultsTable.StatsAt | packages/front-end/components/Experiment/ResultsTable.tsx:348-352 | A variation without a record gets value 0, cr 0 and users 0 |
| ResultsTable.SignificanceByEngine | packages/front-end/components/Experiment/ResultsTable.tsx:353-362 | Under the Bayesian engine significance is the chance to win outside the bounds; under the frequentist one it is `isStatSig` on the chosen p-value |
| ResultsTable.Classes | packages/front-end/components/Experiment/ResultsTable.tsx:421-427 | `significant` is the given significance, `positive` is set iff the expected change is positive, and `negative` iff it is negative; so the two are never both set |
| ResultsTable.VariationRowFor | packages/front-end/components/Experiment/ResultsTable.tsx:339-537 | The row of variation j carries that variation's stats. Its result cell is blank and it has no change cell for the baseline. A change cell appears iff there is a metric and enough data. The baseline value spans the other rows beside the first variation iff the advanced columns show. The graph uses the new UI and a pill under the frequentist engine |
| ResultsTable.ResultCellFor | packages/front-end/components/Experiment/ResultsTable.tsx:412-466 | Exactly one result cell per engine and guardrail flag (chance to win, guardrail, p-value, p-value guardrail), blank for the baseline |
| ResultsTable.ChangeCellFor | packages/front-end/components/Experiment/ResultsTable.tsx:495-533 | The change cell is filled iff the variation is not the baseline, a metric exists and there is enough data. It carries the cell classes. With the advanced columns it shows the interval `ci[0]`, `ci[1]` (0 where missing), and otherwise no interval |
| ResultsTable.ArrowFollowsExpected | packages/front-end/components/Experiment/ResultsTable.tsx:495-529 | The arrow points up iff the expectation (0 when missing) is positive, the same condition as the `positive` class, so zero shows a down arrow. The interval shows iff the advanced columns do |
| ResultsTable.RowVariations | packages/front-end/components/Experiment/ResultsTable.tsx:339-352 | The baseline (index 0) never produces a row; every other variation does, with its own record or the empty one |
| ResultsTable.EmittedRowsAreVariations | packages/front-end/components/Experiment/ResultsTable.tsx:364-401 | An emitted row compares against the baseline's record and never has a blank result. It shows a change cell iff a metric exists and there is enough data. The baseline value spans the rows only beside variation 1 in advanced mode |
| ResultsTable.BayesianPillGraphUsesPValue | packages/front-end/components/Experiment/ResultsTable.tsx:468-481 | Without an uplift distribution a Bayesian row's graph is a new-UI pill, so it takes the p-value rule while the row takes the chance-to-win rule |
| ResultsTable.TableBody | packages/front-end/components/Experiment/ResultsTable.tsx:301-347 | One group of variation rows per table row |
| ResultsTable.PercentChangeTooltip | packages/front-end/components/Experiment/ResultsTable.tsx:573-612 | Bayesian with risk: the credible-interval note alone. Frequentist: the confidence-interval note, then the sequential note iff sequential testing, then the not-adjusted note iff a correction is set. Otherwise nothing |
| ResultsTable.PValueTooltip | packages/front-end/components/Experiment/ResultsTable.tsx:614-644 | A sequential note iff sequential testing, first, with the threshold, and spaced iff a correction note follows. A correction note iff a correction is set, naming it, with dimensions in scope iff the rows are dimensions |
| ResultsTable.ResultHeaderFor | packages/front-end/components/Experiment/ResultsTable.tsx:241-261 | "Chance to Win" or "Chance of Being Worse" under Bayesian, else "P-value". Its tooltip shows iff sequential testing or a correction, using the organization's threshold or 0.05 |
| ResultsTable.HeaderMatchesCells | packages/front-end/components/Experiment/ResultsTable.tsx:241-466 | The header and every variation's result cell agree on the kind of result |
| UserContext.DefaultPermissionsAreGlobalAndOff | packages/front-end/services/UserContext.tsx:59-76 | The default flags are keyed by exactly the 16 global permissions, all false |
| UserContext.GetPermissionsByRole | packages/front-end/services/UserContext.tsx:143-150 | The set is empty when the role is unknown or unset, and only holds permissions some role lists |
| UserContext.FirstMatchingRoleDecides | packages/front-end/services/UserContext.tsx:143-150 | The set holds exactly the permissions of the first role with the id |
| UserContext.NoGrantsKeepFlags | packages/front-end/services/UserContext.tsx:218-220 | Granting nothing leaves the copied flags unchanged |
| UserContext.GrantOneMore | packages/front-end/services/UserContext.tsx:222-224 | Setting one flag true is granting one more permission |
| UserContext.GrantAll | packages/front-end/services/UserContext.tsx:222-224 | Setting each permission of a set to true, one at a time and in any order, yields the copied flags with exactly that set granted |
| UserContext.BuildPermissionsObj | packages/front-end/services/UserContext.tsx:217-224 | The flags object is the default flags with exactly the role's permission set granted |
| UserContext.PermissionFlagsFollowRole | packages/front-end/services/UserContext.tsx:217-224 | Each global flag is true iff the role grants it. Granted non-global permissions are added as keys, set to true |
| UserContext.DefaultRoleSetting | packages/front-end/services/UserContext.tsx:215 | A configured default role is the back end's default role. Where none is configured, the front end has no role, while the back end would fall back to a collaborator |
| UserContext.ResolveRole | packages/front-end/services/UserContext.tsx:213-215 | Admin for an admin, else the user's role, else the organization's default role |
| UserContext.BuildUsersMap | packages/front-end/services/UserContext.tsx:187-195 | The loop puts each member under its id, empty without organization data; proved against the fold |
| UserContext.UsersKeepLastMemberPerId | packages/front-end/services/UserContext.tsx:187-195 | The map's keys are the member ids, each holding the last member with that id |
| UserContext.FallbackUser | packages/front-end/services/UserContext.tsx:200-212 | The fallback user has the signed-in identity and role admin or readonly by the admin flag. It has no project roles, no environment limit and an empty permission tree |
| UserContext.ResolveUser | packages/front-end/services/UserContext.tsx:198-212 | No user before `/user` answers; the listed member when known; the fallback otherwise |
| UserContext.UnlistedUserRole | packages/front-end/services/UserContext.tsx:200-215 | An unlisted signed-in user resolves to admin or readonly by the admin flag |
| UserContext.AnyShared | packages/front-end/services/UserContext.tsx:359-361 | `some` is true iff one of the grant's environments is among those asked about |
| UserContext.PermissionsCheck | packages/front-end/services/UserContext.tsx:342-391 | Throws without a user, a global map or the permission's global entry. Returns true whenever the global grant allows it, before any project map is read. When the global grant does not allow it and a project is given, it also throws without a projects map, and when the project's entry lacks the permission. Returning true means the global grant or a truthy project's grant allows it |
| UserContext.CheckIsGlobalOrProjectGrant | packages/front-end/services/UserContext.tsx:342-391 | With the maps present, the check returns whether the global grant allows, or a truthy project's grant does. A grant allows when held, and when there are no `envs`, no limit, or a shared environment |
| UserContext.EmptyEnvsNeverMatchLimitedGrant | packages/front-end/services/UserContext.tsx:356-363 | With `envs = []`, an environment-limited grant never allows |
| UserContext.HeldGlobalGrantWithoutEnvs | packages/front-end/services/UserContext.tsx:352-355 | Without `envs`, a held global grant returns true, limited or not |
| UserContext.FallbackUserCheckThrows | packages/front-end/services/UserContext.tsx:342-352 | For the fallback user, whose permissions are `{}`, every check throws |
| UserContext.GetUserDisplay | packages/front-end/services/UserContext.tsx:404-408 | A known user shows their name, else their email. An unknown id shows itself unless fallback is off, when nothing shows |
| UserContext.ListedMemberDisplay | packages/front-end/services/UserContext.tsx:187-195 | A member shows under the name, or email, of the last member with their id |
| PostFeature.OrgEnvKeys | packages/back-end/src/api/features/postFeature.ts:47-51 | The organization's environment ids in order, none without the setting |
| PostFeature.InvalidKeys | packages/back-end/src/api/features/postFeature.ts:27 | The invalid keys are exactly the incoming keys the organization lacks |
| PostFeature.InvalidKeysOfConcat | packages/back-end/src/api/features/postFeature.ts:27 | The filter keeps the incoming order: filtering two runs of keys concatenates their results |
| PostFeature.KnownKeysAreValid | packages/back-end/src/api/features/postFeature.ts:27-29 | Keys the organization all has leave nothing invalid |
| PostFeature.InvalidKeysOfOne | packages/back-end/src/api/features/postFeature.ts:27 | A single key is invalid iff the organization lacks it |
| PostFeature.Join | packages/back-end/src/api/features/postFeature.ts:31-33 | Joining nothing is empty; joining one key is that key |
| PostFeature.JoinStep | packages/back-end/src/api/features/postFeature.ts:31-33 | Joining one more key after at least one appends the separator and that key |
| PostFeature.JoinTwo | packages/back-end/src/api/features/postFeature.ts:31-33 | Two keys are joined with the separator between them |
| PostFeature.ValidateEnvKeys | packages/back-end/src/api/features/postFeature.ts:23-36 | Validation fails iff some incoming key is not the organization's; the message lists the invalid keys |
| PostFeature.OwnKeysPass | packages/back-end/src/api/features/postFeature.ts:47-53 | A request without environments, or naming only the organization's own, passes |
| PostFeature.OneUnknownKeyMessage | packages/back-end/src/api/features/postFeature.ts:29-34 | One unknown key after known ones fails with exactly that key quoted in the message |
| PostFeature.ToLower | packages/back-end/src/api/features/postFeature.ts:69 | Lower-casing keeps the length, leaves no capital letter, moves each capital 32 code points up to its lower-case letter and keeps every other character |
| PostFeature.ToLowerProperties | packages/back-end/src/api/features/postFeature.ts:69 | Lower-casing is idempotent, and an id is stored unchanged exactly when it has no capital letter |
| PostFeature.NewFeatureDefaults | packages/back-end/src/api/features/postFeature.ts:60-87 | The id is the request's id lower-cased. Value type and owner are the request's. A sent default value, description or project is kept and a missing one becomes `""`. `archived` is true only when sent true. Creation, update and revision dates are `now`. The feature starts at revision 1 "New feature" published by its owner, with its JSON schema disabled |
| ExperimentRefSummary.Skipped | packages/front-end/components/Features/ExperimentRefSummary.tsx:17-27 | The alert's color defaults to "secondary" and its button to "View results" |
| ExperimentRefSummary.FindVariation | packages/front-end/components/Features/ExperimentRefSummary.tsx:98-100 | The first rule variation with the id, and none exactly when no rule variation has it |
| ExperimentRefSummary.WeightAt | packages/front-end/components/Features/ExperimentRefSummary.tsx:203 | A variation's weight is its entry in the phase's weights, 0 without one |
| ExperimentRefSummary.ServeRows | packages/front-end/components/Features/ExperimentRefSummary.tsx:198-203 | One row per experiment variation, with its name, served value and weight |
| ExperimentRefSummary.ServedValueIsFirstMatch | packages/front-end/components/Features/ExperimentRefSummary.tsx:199-201 | The served value is the first matching rule variation's value, or "null" |
| ExperimentRefSummary.Summarize | packages/front-end/components/Features/ExperimentRefSummary.tsx:46-157 | A missing experiment is skipped. The summary is live iff the experiment is unarchived, has a phase and is not stopped. A rollout happens only for a stopped experiment still in the payload with a released variation |
| ExperimentRefSummary.MissingExperimentNotFound | packages/front-end/components/Features/ExperimentRefSummary.tsx:58-65 | A missing experiment gives a danger "could not be found" alert without a link |
| ExperimentRefSummary.ArchivedIsSkipped | packages/front-end/components/Features/ExperimentRefSummary.tsx:67-75 | An archived experiment is skipped whatever its phases and status |
| ExperimentRefSummary.NoPhaseIsNotRunning | packages/front-end/components/Features/ExperimentRefSummary.tsx:77-86 | Without a phase the experiment is "not running" and skipped |
| ExperimentRefSummary.StoppedOutcomes | packages/front-end/components/Features/ExperimentRefSummary.tsx:88-121 | Stopped: "disabled" when excluded from the payload, before any lookup. Otherwise the first matching released variation's value is rolled out, and "no winner" applies iff none matches |
| ExperimentRefSummary.LiveSummaryUsesLastPhase | packages/front-end/components/Features/ExperimentRefSummary.tsx:124-157 | A live summary uses the last phase and warns iff the experiment is a draft. The phase's condition is shown unless it is empty or `{}`. With an enabled namespace, its name and `rangeEnd - rangeStart` are shown; without one the range is 1. Effective coverage is the namespace range times the coverage (1 when missing). The hash attribute is the experiment's, or "id" when it is empty. The tracking key and id are the experiment's. The served rows are the last phase's rows: one per variation, each with that phase's weight |
| ExperimentRefSummary.EffectiveCoverageIsAFraction | packages/front-end/components/Features/ExperimentRefSummary.tsx:124-128 | With range and coverage inside [0, 1], the effective coverage is in [0, 1] and at most the namespace range |
| AutoGenerateMetricsButton.AnySupports | packages/front-end/components/AutoGenerateMetricsButton.tsx:26-29 | `some` is true iff one datasource supports auto-generated metrics |
| AutoGenerateMetricsButton.ShowButton | packages/front-end/components/AutoGenerateMetricsButton.tsx:19-30 | A passed datasource decides by its own flag (missing is false); otherwise any supporting datasource shows the button |
| AutoGenerateMetricsButton.PassedDatasourceIgnoresList | packages/front-end/components/AutoGenerateMetricsButton.tsx:20-23 | With a datasource passed the list is ignored, and a missing flag hides the button |
| AutoGenerateMetricsButton.ListDecidesWithoutDatasource | packages/front-end/components/AutoGenerateMetricsButton.tsx:26-29 | With nothing passed an empty list hides the button, and one supporting datasource anywhere shows it |
| AutoGenerateMetricsButton.Render | packages/front-end/components/AutoGenerateMetricsButton.tsx:32-46 | The button is rendered iff it is to be shown, large iff size "lg" |

## Left out

- JSX, CSS classes other than the significance classes, React hooks and effects. This
  includes the DOM measurement loop of `onResize` in
  packages/front-end/components/Experiment/ResultsTable.tsx:102-129. Thresholds,
  confidence bounds and metric defaults are parameters.
- `isStatSig`, `hasEnoughData`, `isExpectedDirection` and `pValueFormatter`:
  `@/services/experiments` is not part of this model. The first three are arbitrary total
  functions (`StatsOracles`); the formatted p-value is kept as the number.
- Number formatting (`Intl.NumberFormat`, `toFixed`, `parseFloat`) and floating point.
  Numbers are exact `real`s. NaN, which JavaScript treats as falsy in `|| 0`, is not
  modelled.
- `DEFAULT_STATS_ENGINE` is not part of this model. `TableConfig.statsEngine` already
  holds the engine after defaulting. A correction method is any non-empty string.
- The side effects of the user context: the `/user` and `/organization` calls, `sha256`,
  Sentry, GrowthBook attributes and the `currentUser` telemetry. Their results are
  parameters (`UserResponse`, `OrgResponse`).
- The body of the `postFeature` handler: the permission checks, the duplicate-id lookup,
  `validateFeatureValue`, `createInterfaceEnvSettingsFromApiEnvSettings`,
  `addIdsToRules`, storage, audit and the response object. The environment settings are a
  parameter of `NewFeature`.
- PostFeature.NewFeature: the three `new Date()` calls are one `now` parameter.
- PostFeature.ToLower: only ASCII letters are lower-cased. JavaScript's full Unicode case
  mapping is not modelled.
- ExperimentRefSummary: the condition, value and split widgets (`ConditionDisplay`,
  `ValueDisplay`, `ValidateValue`, `ExperimentSplitVisual`, `ForceSummary`) are shown
  only as the values handed to them. The undefined `coverage` read at line 188 is display
  only and is not modelled.
- packages/back-end/src/services/openai.ts is not part of this model. It is a network
  client whose token counting depends on an external encoder.
- packages/front-end/components/Experiment/LinkedChange.tsx and
  packages/front-end/components/HomePage/GetStartedCard.tsx are presentation, and an
  update that only feeds an API call.
- packages/front-end/test/services/secret-api-keys.utils.test.ts tests `groupApiKeysByType`,
  whose implementation is not part of this model.
- ResultsTable: `ChanceToWinColumn`, `PValueColumn`, `GuardrailResults` and
  `MetricValueColumn` are other components. The model records which one is chosen and
  the values handed to it, not what they draw.
- PercentGraph.PercentGraphProps carries no contract of its own. Its properties are the
  lemmas NoGraphWithoutData, SignificanceRule and FillAndInverse.
- The front-end and back-end permission shapes are modelled each as written and are not
  reconciled. The back-end writes booleans per permission; the front-end reads
  `{hasPermission, limitAccessByEnvironment, environments}` per permission.
- Organization.GetUserPermissions: the method builds the corrected global entry
  (`GlobalPermissionSet`), not the one the source computes, which is always `[]` and
  unlimited (organization.util.ts:60-61). The as-written entry is
  `GlobalPermissionSetAsWritten`; `AsWrittenAgreesOnlyWithoutRestriction` states when the
  two agree (see Findings).

## Findings

| source | as written | input that shows it | evidently intended | confidence | as-written member | corrected member |
|---|---|---|---|---|---|---|
| packages/back-end/src/util/organization.util.ts:60-61 | The global entry reads `user.role.environments` and `user.role.limitAccessByEnvironment`. `user.role` is a role name, a string without these fields, so the global entry is always `[]` and `false` | A member with role engineer, limited to `["production"]`: the global entry is unlimited | The member's own `environments` and `limitAccessByEnvironment` | medium, not executed | Organization.GlobalPermissionSetAsWritten (shown by Organization.GlobalEntryDropsMemberRestriction) | Organization.GlobalPermissionSet (used by Organization.GetUserPermissions) |

Also of note, and modelled as written: `PValueGuardrailResults` reads `stats.pValueAdjusted`
(packages/front-end/components/Experiment/PValueGuardrailResult.tsx:43) before the
`stats &&` guard at line 53. Missing statistics therefore throw rather than reaching the
"not enough data" branch. ResultsTable always passes a record, so the table never hits this.

=== FILE: auto_generate_metrics_button.dfy ===
/** Whether the "Discover Metrics" button is offered: for the given datasource when there
    is one, otherwise when any of the organization's datasources could use it. */
module AutoGenerateMetricsButton {
  import opened Options

  datatype DataSourceProperties = DataSourceProperties(supportsAutoGeneratedMetrics: Option<bool>)

  datatype DataSource = DataSource(id: string, properties: Option<DataSourceProperties>)

  /** `properties?.supportsAutoGeneratedMetrics || false`. */
  predicate Supports(d: DataSource) {
    d.properties.Some? && IsTrue(d.properties.value.supportsAutoGeneratedMetrics)
  }

  /** `datasources.some(Supports)`, scanning from the front. */
  function AnySupports(datasources: seq<DataSource>): (any: bool)
    ensures any <==> exists i :: 0 <= i < |datasources| && Supports(datasources[i])
  {
    if datasources == [] then false
    else if Supports(datasources[0]) then true
    else
      var rest := AnySupports(datasources[1..]);
      if rest then
        ghost var i :| 0 <= i < |datasources[1..]| && Supports(datasources[1..][i]);
        assert Supports(datasources[i + 1]);
        rest
      else
        assert forall i :: 1 <= i < |datasources| ==> datasources[i] == datasources[1..][i - 1];
        rest
  }

  function ShowButton(datasource: Option<DataSource>, datasources: seq<DataSource>): (show: bool)
    ensures datasource.Some? ==> (show <==> Supports(datasource.value))
    ensures datasource.None? ==> (show <==> exists i :: 0 <= i < |datasources| && Supports(datasources[i]))
  {
    if datasource.Some? then Supports(datasource.value) else AnySupports(datasources)
  }

  /** A passed datasource decides alone; the list is not consulted. */
  lemma PassedDatasourceIgnoresList(d: DataSource, a: seq<DataSource>, b: seq<DataSource>)
    ensures ShowButton(Some(d), a) == ShowButton(Some(d), b)
    ensures d.properties.None? || d.properties.value.supportsAutoGeneratedMetrics.None? ==> !ShowButton(Some(d), a)
  {
  }

  /** With nothing passed and no datasources, there is no button; one supporting
      datasource anywhere in the list is enough. */
  lemma ListDecidesWithoutDatasource(datasources: seq<DataSource>, extra: DataSource)
    ensures !ShowButton(None, [])
    ensures Supports(extra) ==> ShowButton(None, datasources + [extra]) && ShowButton(None, [extra] + datasources)
  {
    assert (datasources + [extra])[|datasources|] == extra;
    assert ([extra] + datasources)[0] == extra;
  }

  datatype Size = Large

  /** The rendered button; present exactly when it is to be shown. */
  datatype Button = Button(large: bool, caption: string)

  function Render(datasource: Option<DataSource>, datasources: seq<DataSource>, size: Option<Size>)
    : (button: Option<Button>)
    ensures button.Some? <==> ShowButton(datasource, datasources)
    ensures button.Some? ==> button.value == Button(size == Some(Large), "Discover Metrics")
  {
    if ShowButton(datasource, datasources) then Some(Button(size == Some(Large), "Discover Metrics")) else None
  }
}

=== FILE: experiment_ref_summary.dfy ===
/** The summary shown for an experiment rule of a feature: why the rule is skipped, the
    rollout a stopped experiment serves, or the split, coverage and values it runs with. */
module ExperimentRefSummary {
  import opened Options

  /** A rule's value for one experiment variation. */
  datatype RuleVariation = RuleVariation(variationId: string, value: string)

  datatype ExperimentVariation = ExperimentVariation(id: string, name: string)

  datatype ExperimentStatus = Draft | Running | Stopped

  datatype Namespace = Namespace(enabled: bool, name: string, rangeStart: real, rangeEnd: real)

  datatype Phase = Phase(
    namespace: Option<Namespace>, coverage: Option<real>, condition: string,
    variationWeights: Option<seq<real>>)

  datatype Experiment = Experiment(
    id: string, archived: bool, status: ExperimentStatus, excludeFromPayload: bool,
    releasedVariationId: Option<string>, phases: seq<Phase>, hashAttribute: string,
    variations: seq<ExperimentVariation>, trackingKey: string)

  /** The alert `ExperimentSkipped` draws, its defaults filled in. */
  datatype Alert = Alert(message: string, color: string, experimentId: Option<string>, cta: string)

  function Skipped(message: string, color: Option<string>, experimentId: Option<string>, cta: Option<string>)
    : (alert: Alert)
    ensures alert.color == color.GetOr("secondary") && alert.cta == cta.GetOr("View results")
    ensures alert.message == message && alert.experimentId == experimentId
  {
    Alert(message, color.GetOr("secondary"), experimentId, cta.GetOr("View results"))
  }

  /** One row of the SERVE table. */
  datatype ServeRow = ServeRow(name: string, value: string, weight: real)

  datatype Summary =
    | Skip(alert: Alert)
    | Rollout(alert: Alert, value: string)
    | Live(
        draftWarning: bool, condition: Option<string>, hashAttribute: string,
        namespaceName: Option<string>, namespaceRange: real, effectiveCoverage: real,
        serve: seq<ServeRow>, trackingKey: string, experimentId: string)

  const NOT_FOUND := "The experiment could not be found"
  const ARCHIVED := "This experiment is archived. This rule will be skipped."
  const NOT_RUNNING := "This experiment is not running. This rule will be skipped."
  const STOPPED_DISABLED := "This experiment is stopped and disabled. This rule will be skipped."
  const TEMPORARY_ROLLOUT :=
    "This experiment is stopped and a Temporary Rollout is enabled. The winning variation is being served to 100% of users."
  const NO_WINNER := "This experiment is stopped, but a winner was not selected. This rule will be skipped"

  /** `variations.find((v) => v.variationId === id)`: the first rule variation for the id. */
  function FindVariation(variations: seq<RuleVariation>, id: Option<string>): (found: Option<RuleVariation>)
    ensures found.None? <==> forall i :: 0 <= i < |variations| ==> Some(variations[i].variationId) != id
    ensures found.Some? ==>
      exists i :: 0 <= i < |variations| && variations[i] == found.value &&
                  Some(found.value.variationId) == id &&
                  forall j :: 0 <= j < i ==> Some(variations[j].variationId) != id
  {
    if variations == [] then None
    else if Some(variations[0].variationId) == id then Some(variations[0])
    else
      var found := FindVariation(variations[1..], id);
      if found.Some? then
        ghost var i :| 0 <= i < |variations[1..]| && variations[1..][i] == found.value &&
          Some(found.value.variationId) == id &&
          forall j :: 0 <= j < i ==> Some(variations[1..][j].variationId) != id;
        assert variations[i + 1] == found.value;
        found
      else found
  }

  /** The value served to an experiment variation: its rule variation's value, else "null". */
  function ServedValue(variations: seq<RuleVariation>, id: string): string {
    match FindVariation(variations, Some(id))
    case Some(v) => v.value
    case None => "null"
  }

  /** `phase.variationWeights?.[j] || 0`. */
  function WeightAt(phase: Phase, j: nat): (weight: real)
    ensures phase.variationWeights.Some? && j < |phase.variationWeights.value| ==>
      weight == phase.variationWeights.value[j]
    ensures phase.variationWeights.None? || j >= |phase.variationWeights.value| ==> weight == 0.0
  {
    if phase.variationWeights.Some? && j < |phase.variationWeights.value| then phase.variationWeights.value[j]
    else 0.0
  }

  predicate HasNamespace(phase: Phase) {
    phase.namespace.Some? && phase.namespace.value.enabled
  }

  /** The namespace's share of traffic, 1 without an enabled namespace. */
  function NamespaceRange(phase: Phase): real {
    if HasNamespace(phase) then phase.namespace.value.rangeEnd - phase.namespace.value.rangeStart else 1.0
  }

  function EffectiveCoverage(phase: Phase): real {
    NamespaceRange(phase) * phase.coverage.GetOr(1.0)
  }

  function ServeRows(rule: seq<RuleVariation>, experiment: Experiment, phase: Phase): (rows: seq<ServeRow>)
    ensures |rows| == |experiment.variations|
    ensures forall j :: 0 <= j < |rows| ==>
      rows[j].name == experiment.variations[j].name && rows[j].weight == WeightAt(phase, j) &&
      rows[j].value == ServedValue(rule, experiment.variations[j].id)
  {
    seq(|experiment.variations|, j requires 0 <= j < |experiment.variations| =>
      ServeRow(experiment.variations[j].name, ServedValue(rule, experiment.variations[j].id), WeightAt(phase, j)))
  }

  /** The component's decision: the chain of early returns, then the running summary. Only
      an unarchived, started, unstopped experiment is live; only a stopped one still in the
      payload can be rolled out. */
  function Summarize(rule: seq<RuleVariation>, experiment: Option<Experiment>): (s: Summary)
    ensures experiment.None? ==> s.Skip?
    ensures s.Live? <==>
      experiment.Some? && !experiment.value.archived && experiment.value.phases != [] &&
      experiment.value.status != Stopped
    ensures s.Rollout? ==>
      experiment.Some? && !experiment.value.archived && experiment.value.phases != [] &&
      experiment.value.status == Stopped && !experiment.value.excludeFromPayload
    ensures s.Rollout? ==> experiment.value.releasedVariationId.Some?
  {
    if experiment.None? then Skip(Skipped(NOT_FOUND, Some("danger"), None, None))
    else
      var e := experiment.value;
      if e.archived then Skip(Skipped(ARCHIVED, None, Some(e.id), Some("View experiment")))
      else if e.phases == [] then Skip(Skipped(NOT_RUNNING, None, Some(e.id), Some("View experiment")))
      else if e.status == Stopped then
        if e.excludeFromPayload then Skip(Skipped(STOPPED_DISABLED, None, Some(e.id), None))
        else match FindVariation(rule, e.releasedVariationId)
          case Some(released) => Rollout(Skipped(TEMPORARY_ROLLOUT, Some("info"), Some(e.id), None), released.value)
          case None => Skip(Skipped(NO_WINNER, None, Some(e.id), None))
      else
        var phase := e.phases[|e.phases| - 1];
        Live(
          e.status == Draft,
          if phase.condition != "" && phase.condition != "{}" then Some(phase.condition) else None,
          if e.hashAttribute != "" then e.hashAttribute else "id",
          if HasNamespace(phase) then Some(phase.namespace.value.name) else None,
          NamespaceRange(phase), EffectiveCoverage(phase),
          ServeRows(rule, e, phase), e.trackingKey, e.id)
  }

  /** A missing experiment gives a danger alert with no link. */
  lemma MissingExperimentNotFound(rule: seq<RuleVariation>)
    ensures Summarize(rule, None) == Skip(Alert(NOT_FOUND, "danger", None, "View results"))
  {
  }

  /** An archived experiment is skipped whatever its phases and status. */
  lemma ArchivedIsSkipped(rule: seq<RuleVariation>, e: Experiment)
    requires e.archived
    ensures Summarize(rule, Some(e)) == Skip(Alert(ARCHIVED, "secondary", Some(e.id), "View experiment"))
  {
  }

  /** Without a phase an unarchived experiment is not running, whatever its status. */
  lemma NoPhaseIsNotRunning(rule: seq<RuleVariation>, e: Experiment)
    requires !e.archived && e.phases == []
    ensures Summarize(rule, Some(e)) == Skip(Alert(NOT_RUNNING, "secondary", Some(e.id), "View experiment"))
  {
  }

  /** A stopped experiment: disabled when excluded from the payload (before any lookup),
      else the released variation's value is rolled out, else no winner was chosen. */
  lemma StoppedOutcomes(rule: seq<RuleVariation>, e: Experiment)
    requires !e.archived && e.phases != [] && e.status == Stopped
    ensures e.excludeFromPayload ==>
      Summarize(rule, Some(e)) == Skip(Alert(STOPPED_DISABLED, "secondary", Some(e.id), "View results"))
    ensures !e.excludeFromPayload ==>
      (Summarize(rule, Some(e)).Rollout? <==>
        exists i :: 0 <= i < |rule| && Some(rule[i].variationId) == e.releasedVariationId)
    ensures forall i :: (0 <= i < |rule| && Some(rule[i].variationId) == e.releasedVariationId &&
      (forall j :: 0 <= j < i ==> Some(rule[j].variationId) != e.releasedVariationId) && !e.excludeFromPayload) ==>
      Summarize(rule, Some(e)) == Rollout(Alert(TEMPORARY_ROLLOUT, "info", Some(e.id), "View results"), rule[i].value)
    ensures !e.excludeFromPayload && Summarize(rule, Some(e)).Skip? ==>
      Summarize(rule, Some(e)).alert.message == NO_WINNER
  {
    var found := FindVariation(rule, e.releasedVariationId);
    if found.Some? {
      forall i | 0 <= i < |rule| && Some(rule[i].variationId) == e.releasedVariationId &&
        (forall j :: 0 <= j < i ==> Some(rule[j].variationId) != e.releasedVariationId)
        ensures found.value == rule[i]
      {
        ghost var k :| 0 <= k < |rule| && rule[k] == found.value &&
          Some(found.value.variationId) == e.releasedVariationId &&
          forall j :: 0 <= j < k ==> Some(rule[j].variationId) != e.releasedVariationId;
        assert !(k < i) && !(i < k);
      }
    }
  }

  /** An unarchived experiment with a phase that is not stopped shows its summary, from
      its last phase, with a warning when it is a draft: the phase's condition unless it
      is empty, its namespace's range (the whole range without one), its coverage within
      that range, and one row per variation with the last phase's weight. */
  lemma LiveSummaryUsesLastPhase(rule: seq<RuleVariation>, e: Experiment)
    requires !e.archived && e.phases != [] && e.status != Stopped
    ensures var s := Summarize(rule, Some(e));
      var phase := e.phases[|e.phases| - 1];
      && s.Live?
      && (s.draftWarning <==> e.status == Draft)
      && (s.condition.Some? <==> phase.condition != "" && phase.condition != "{}")
      && (s.condition.Some? ==> s.condition.value == phase.condition)
      && s.effectiveCoverage == s.namespaceRange * phase.coverage.GetOr(1.0)
      && (s.namespaceName.Some? <==> HasNamespace(phase))
      && (HasNamespace(phase) ==>
            (s.namespaceName == Some(phase.namespace.value.name) &&
             s.namespaceRange == phase.namespace.value.rangeEnd - phase.namespace.value.rangeStart))
      && (!HasNamespace(phase) ==> s.namespaceRange == 1.0)
      && s.hashAttribute == (if e.hashAttribute != "" then e.hashAttribute else "id")
      && s.trackingKey == e.trackingKey && s.experimentId == e.id
      && s.serve == ServeRows(rule, e, phase)
      && |s.serve| == |e.variations|
      && (forall j :: 0 <= j < |s.serve| ==> s.serve[j].weight == WeightAt(phase, j))
  {
  }

  /** With the namespace range and the coverage inside [0, 1], so is the effective coverage. */
  lemma EffectiveCoverageIsAFraction(phase: Phase)
    requires HasNamespace(phase) ==>
      0.0 <= phase.namespace.value.rangeStart <= phase.namespace.value.rangeEnd <= 1.0
    requires phase.coverage.Some? ==> 0.0 <= phase.coverage.value <= 1.0
    ensures 0.0 <= EffectiveCoverage(phase) <= 1.0
    ensures EffectiveCoverage(phase) <= NamespaceRange(phase)
  {
    var r := NamespaceRange(phase);
    var c := phase.coverage.GetOr(1.0);
    assert EffectiveCoverage(phase) == r * c;
    assert 0.0 <= r <= 1.0 && 0.0 <= c <= 1.0;
    assert 0.0 <= r * c by {
      if c > 0.0 {
        assert r * c >= 0.0 * c;
      }
    }
    assert r * c <= r * 1.0;
  }

  /** A served value is the value of the first rule variation for that variation, or
      "null" when the rule has none. */
  lemma ServedValueIsFirstMatch(rule: seq<RuleVariation>, id: string)
    ensures (forall i :: 0 <= i < |rule| ==> rule[i].variationId != id) ==> ServedValue(rule, id) == "null"
    ensures forall i :: (0 <= i < |rule| && rule[i].variationId == id &&
      (forall j :: 0 <= j < i ==> rule[j].variationId != id)) ==> ServedValue(rule, id) == rule[i].value
  {
    var found := FindVariation(rule, Some(id));
    if found.Some? {
      forall i | 0 <= i < |rule| && rule[i].variationId == id && (forall j :: 0 <= j < i ==> rule[j].variationId != id)
        ensures found.value == rule[i]
      {
        ghost var k :| 0 <= k < |rule| && rule[k] == found.value && Some(found.value.variationId) == Some(id) &&
          forall j :: 0 <= j < k ==> Some(rule[j].variationId) != Some(id);
        assert !(k < i) && !(i < k);
      }
    }
  }
}

=== FILE: experiment_stats.dfy ===
/** The statistic record attached to a metric/variation pair, the decisions taken from
    the experiments service, and the two significance rules the result views share. */
module ExperimentStats {
  import opened Options

  /** Posterior of the relative uplift; `dist` is the distribution's name ("" for none). */
  datatype Uplift = Uplift(dist: string, mean: real, stddev: real)

  /** `SnapshotMetric`: one variation's statistics for one metric. The optional fields
      are the ones the result views read through `??`, `?.` or `||`. */
  datatype SnapshotMetric = SnapshotMetric(
    value: real, cr: real, users: nat,
    chanceToWin: Option<real>, expected: Option<real>,
    ci: Option<seq<real>>, uplift: Option<Uplift>,
    pValue: Option<real>, pValueAdjusted: Option<real>)

  /** `MetricInterface`, reduced to the fields the result views read. */
  datatype Metric = Metric(id: string, inverse: bool)

  /** The record a missing entry is replaced by: `{ value: 0, cr: 0, users: 0 }`. */
  const EMPTY_STATS: SnapshotMetric :=
    SnapshotMetric(0.0, 0.0, 0, None, None, None, None, None, None)

  /** `isStatSig(pValue, threshold)`, `hasEnoughData(baseline, stats, metric, metricDefaults)`
      and `isExpectedDirection(stats, metric)`. Their code is not part of this model, so
      every property below holds whatever these functions are; the organization's metric
      defaults are captured inside `hasEnoughData`. */
  datatype StatsOracles = StatsOracles(
    isStatSig: (real, real) -> bool,
    hasEnoughData: (SnapshotMetric, SnapshotMetric, Option<Metric>) -> bool,
    isExpectedDirection: (SnapshotMetric, Option<Metric>) -> bool)

  /** `stats.pValueAdjusted ?? stats.pValue ?? 1`: the adjusted p-value wins, then the
      raw one; a record with neither counts as p = 1. */
  function PValueOf(stats: SnapshotMetric): (p: real)
    ensures stats.pValueAdjusted.Some? ==> p == stats.pValueAdjusted.value
    ensures stats.pValueAdjusted.None? && stats.pValue.Some? ==> p == stats.pValue.value
    ensures stats.pValueAdjusted.None? && stats.pValue.None? ==> p == 1.0
  {
    stats.pValueAdjusted.GetOr(stats.pValue.GetOr(1.0))
  }

  /** The p-value tested is always one the record reports, or 1; it is a probability
      whenever the reported ones are. */
  lemma PValueIsReportedOrOne(stats: SnapshotMetric)
    ensures PValueOf(stats) == 1.0 || Some(PValueOf(stats)) in {stats.pValueAdjusted, stats.pValue}
    ensures (stats.pValueAdjusted.Some? ==> 0.0 <= stats.pValueAdjusted.value <= 1.0) &&
            (stats.pValue.Some? ==> 0.0 <= stats.pValue.value <= 1.0)
            ==> 0.0 <= PValueOf(stats) <= 1.0
  {
  }

  /** Bayesian significance: the chance to win (0 when missing) lies above `ciUpper`
      or below `ciLower`. */
  predicate ChanceToWinSignificant(stats: SnapshotMetric, ciUpper: real, ciLower: real) {
    stats.chanceToWin.GetOr(0.0) > ciUpper || stats.chanceToWin.GetOr(0.0) < ciLower
  }

  /** With ordered bounds, significance is exactly "outside [ciLower, ciUpper]". */
  lemma ChanceToWinOutsideInterval(stats: SnapshotMetric, ciUpper: real, ciLower: real)
    requires ciLower <= ciUpper
    ensures ChanceToWinSignificant(stats, ciUpper, ciLower) <==>
              !(ciLower <= stats.chanceToWin.GetOr(0.0) <= ciUpper)
  {
  }

  /** A record without a chance to win counts as 0, which is significant (a sure loss)
      as soon as the lower bound is positive. */
  lemma MissingChanceToWinIsSignificant(stats: SnapshotMetric, ciUpper: real, ciLower: real)
    requires stats.chanceToWin.None? && ciLower > 0.0
    ensures ChanceToWinSignificant(stats, ciUpper, ciLower)
  {
  }

  /** Frequentist significance: `isStatSig` on the p-value chosen by PValueOf. */
  predicate PValueSignificant(stats: SnapshotMetric, pValueThreshold: real, oracles: StatsOracles) {
    oracles.isStatSig(PValueOf(stats), pValueThreshold)
  }
}

=== FILE: lists.dfy ===
/** List helpers shared by the modules: de-duplication through a `Set`, and a `forEach`
    that stores every element of a list in a map under the element's key. */
module Lists {

  predicate NoDuplicates<T(==)>(s: seq<T>) {
    forall i, j :: 0 <= i < j < |s| ==> s[i] != s[j]
  }

  /** A list in which no element repeats an earlier one has no duplicates. */
  lemma NoDuplicatesByPrefix<T>(s: seq<T>)
    requires forall i :: 0 <= i < |s| ==> s[i] !in s[..i]
    ensures NoDuplicates(s)
  {
    forall i, j | 0 <= i < j < |s|
      ensures s[i] != s[j]
    {
      assert s[i] in s[..j];
    }
  }

  /** `Array.from(new Set(s))`: the elements of `s` in order of first occurrence. */
  function Dedupe<T(==)>(s: seq<T>): (r: seq<T>)
    ensures NoDuplicates(r)
    ensures forall i :: 0 <= i < |r| ==> r[i] in s
    ensures forall i :: 0 <= i < |s| ==> s[i] in r
    ensures |r| <= |s|
  {
    if s == [] then []
    else
      var d := Dedupe(s[..|s| - 1]);
      var x := s[|s| - 1];
      if x in d then d else d + [x]
  }

  /** De-duplicating one more element of `s` only appends. */
  lemma DedupeStep<T>(s: seq<T>, m: nat)
    requires 0 < m <= |s|
    ensures Dedupe(s[..m - 1]) <= Dedupe(s[..m])
  {
    assert s[..m][..m - 1] == s[..m - 1];
  }

  lemma PrefixTransitive<T>(a: seq<T>, b: seq<T>, c: seq<T>)
    ensures a <= b && b <= c ==> a <= c
  {
    if a <= b && b <= c {
      assert a == b[..|a|] && b == c[..|b|];
    }
  }

  /** First-occurrence order: de-duplicating a shorter prefix of `s` gives a prefix of
      de-duplicating a longer one, so an element seen earlier is listed earlier. */
  lemma {:induction false} DedupeKeepsFirstOccurrenceOrder<T>(s: seq<T>, k: nat, m: nat)
    requires k <= m <= |s|
    ensures Dedupe(s[..k]) <= Dedupe(s[..m])
    decreases m
  {
    if k < m {
      DedupeKeepsFirstOccurrenceOrder(s, k, m - 1);
      DedupeStep(s, m);
      PrefixTransitive(Dedupe(s[..k]), Dedupe(s[..m - 1]), Dedupe(s[..m]));
    }
  }

  /** A list without duplicates passes through the `Set` unchanged. */
  lemma {:induction false} DedupeOfDistinct<T>(s: seq<T>)
    requires NoDuplicates(s)
    ensures Dedupe(s) == s
  {
    if s != [] {
      var n := |s| - 1;
      assert NoDuplicates(s[..n]);
      DedupeOfDistinct(s[..n]);
      assert s[n] !in s[..n];
      assert s[..n] + [s[n]] == s;
    }
  }

  /** Each element is stored under its key; a later element with the same key
      overwrites an earlier one. */
  function AssignAll<T, K, V>(xs: seq<T>, key: T -> K, val: T -> V): map<K, V>
  {
    if xs == [] then map[]
    else
      var x := xs[|xs| - 1];
      AssignAll(xs[..|xs| - 1], key, val)[key(x) := val(x)]
  }

  /** One `forEach` step: assigning the next element extends the map built from the prefix. */
  lemma AssignAllStep<T, K, V>(xs: seq<T>, i: nat, key: T -> K, val: T -> V)
    requires i < |xs|
    ensures AssignAll(xs[..i + 1], key, val) == AssignAll(xs[..i], key, val)[key(xs[i]) := val(xs[i])]
  {
    assert xs[..i + 1][..i] == xs[..i];
  }

  /** The map holds exactly the keys of the elements. */
  lemma {:induction false} AssignAllKeys<T, K, V>(xs: seq<T>, key: T -> K, val: T -> V)
    ensures AssignAll(xs, key, val).Keys == set i | 0 <= i < |xs| :: key(xs[i])
  {
    if xs != [] {
      var n := |xs| - 1;
      AssignAllKeys(xs[..n], key, val);
      var ks := set i | 0 <= i < n :: key(xs[..n][i]);
      assert ks == set i | 0 <= i < n :: key(xs[i]);
      assert (set i | 0 <= i < |xs| :: key(xs[i])) == ks + {key(xs[n])};
    }
  }

  /** An element that no later element overwrites is the one the map keeps under its key. */
  lemma {:induction false} AssignAllLast<T, K, V>(xs: seq<T>, i: nat, key: T -> K, val: T -> V)
    requires i < |xs|
    requires forall j :: i < j < |xs| ==> key(xs[j]) != key(xs[i])
    ensures key(xs[i]) in AssignAll(xs, key, val)
    ensures AssignAll(xs, key, val)[key(xs[i])] == val(xs[i])
  {
    var n := |xs| - 1;
    if i < n {
      AssignAllLast(xs[..n], i, key, val);
    }
  }
}

=== FILE: options.dfy ===
/** Optional values, standing for the `undefined`/`null` of the modelled code. */
module Options {

  datatype Option<+T> = None | Some(value: T) {

    /** `x ?? d`: the value when present, else the default. */
    function GetOr(default: T): T {
      match this
      case Some(v) => v
      case None => default
    }
  }

  /** JavaScript truthiness of an optional string: present and not empty. */
  predicate Truthy(s: Option<string>) {
    s.Some? && s.value != ""
  }

  /** `s || d` on an optional string. */
  function OrElse(s: Option<string>, default: string): (r: string)
    ensures Truthy(s) ==> r == s.value
    ensures !Truthy(s) ==> r == default
  {
    if Truthy(s) then s.value else default
  }

  /** `!!b` on an optional boolean. */
  predicate IsTrue(b: Option<bool>) {
    b == Some(true)
  }
}

=== FILE: organization.dfy ===
/** The back-end role and permission model: the permission lists, the six built-in
    roles, and the per-user permission maps built from a member's roles. */
module Organization {
  import opened Options
  import opened Lists

  /** Every permission name the organization model knows. */
  datatype Permission =
    // global
    | CreatePresentations | CreateDimensions | CreateSegments | OrganizationSettings
    | SuperDelete | ManageTeam | ManageTags | ManageApiKeys | ManageIntegrations
    | ManageWebhooks | ManageBilling | ManageNorthStarMetric | ManageTargetingAttributes
    | ManageNamespaces | ManageSavedGroups | ViewEvents
    // project-scoped
    | AddComments | CreateFeatureDrafts | ManageFeatures | ManageProjects | CreateAnalyses
    | CreateIdeas | CreateMetrics | CreateDatasources | EditDatasourceSettings | RunQueries
    // environment-scoped
    | PublishFeatures | ManageEnvironments | RunExperiments

  /** `MemberRole`; `designer` and `developer` have no entry in the role table. */
  datatype MemberRole =
    Readonly | Collaborator | Designer | Analyst | Developer | Engineer | Experimenter | Admin

  const ENV_SCOPED_PERMISSIONS: seq<Permission> :=
    [PublishFeatures, ManageEnvironments, RunExperiments]

  const PROJECT_SCOPED_PERMISSIONS: seq<Permission> :=
    [AddComments, CreateFeatureDrafts, ManageFeatures, ManageProjects, CreateAnalyses,
     CreateIdeas, CreateMetrics, CreateDatasources, EditDatasourceSettings, RunQueries]

  const GLOBAL_PERMISSIONS: seq<Permission> :=
    [CreatePresentations, CreateDimensions, CreateSegments, OrganizationSettings,
     SuperDelete, ManageTeam, ManageTags, ManageApiKeys, ManageIntegrations,
     ManageWebhooks, ManageBilling, ManageNorthStarMetric, ManageTargetingAttributes,
     ManageNamespaces, ManageSavedGroups, ViewEvents]

  const ALL_PERMISSIONS: seq<Permission> :=
    GLOBAL_PERMISSIONS + PROJECT_SCOPED_PERMISSIONS + ENV_SCOPED_PERMISSIONS

  /** Position of a permission in ALL_PERMISSIONS. */
  function Index(p: Permission): (i: nat)
    ensures i < |ALL_PERMISSIONS| && ALL_PERMISSIONS[i] == p
  {
    match p
    case CreatePresentations => 0 case CreateDimensions => 1 case CreateSegments => 2
    case OrganizationSettings => 3 case SuperDelete => 4 case ManageTeam => 5
    case ManageTags => 6 case ManageApiKeys => 7 case ManageIntegrations => 8
    case ManageWebhooks => 9 case ManageBilling => 10 case ManageNorthStarMetric => 11
    case ManageTargetingAttributes => 12 case ManageNamespaces => 13
    case ManageSavedGroups => 14 case ViewEvents => 15
    case AddComments => 16 case CreateFeatureDrafts => 17 case ManageFeatures => 18
    case ManageProjects => 19 case CreateAnalyses => 20 case CreateIdeas => 21
    case CreateMetrics => 22 case CreateDatasources => 23 case EditDatasourceSettings => 24
    case RunQueries => 25
    case PublishFeatures => 26 case ManageEnvironments => 27 case RunExperiments => 28
  }

  /** ALL_PERMISSIONS lists the global, then project-scoped, then environment-scoped
      permissions: 16 + 10 + 3 names, pairwise distinct, every permission among them. */
  lemma AllPermissionsShape()
    ensures |GLOBAL_PERMISSIONS| == 16 && |PROJECT_SCOPED_PERMISSIONS| == 10
    ensures |ENV_SCOPED_PERMISSIONS| == 3 && |ALL_PERMISSIONS| == 29
    ensures forall p: Permission :: p in ALL_PERMISSIONS
    ensures forall i, j :: 0 <= i < j < |ALL_PERMISSIONS| ==> ALL_PERMISSIONS[i] != ALL_PERMISSIONS[j]
  {
    forall p: Permission ensures p in ALL_PERMISSIONS {
      var _ := Index(p);
    }
    forall i, j | 0 <= i < j < |ALL_PERMISSIONS|
      ensures ALL_PERMISSIONS[i] != ALL_PERMISSIONS[j]
    {
      IndexOfEntry(i);
      IndexOfEntry(j);
    }
  }

  lemma IndexOfEntry(i: nat)
    requires i < |ALL_PERMISSIONS|
    ensures Index(ALL_PERMISSIONS[i]) == i
  {
    if i < 16 {
      assert ALL_PERMISSIONS[i] == GLOBAL_PERMISSIONS[i];
      IndexOfGlobal(i);
    } else if i < 26 {
      assert ALL_PERMISSIONS[i] == PROJECT_SCOPED_PERMISSIONS[i - 16];
      IndexOfProjectScoped(i - 16);
    } else {
      assert ALL_PERMISSIONS[i] == ENV_SCOPED_PERMISSIONS[i - 26];
    }
  }

  lemma IndexOfGlobal(i: nat)
    requires i < |GLOBAL_PERMISSIONS|
    ensures Index(GLOBAL_PERMISSIONS[i]) == i
  {
  }

  lemma IndexOfProjectScoped(i: nat)
    requires i < |PROJECT_SCOPED_PERMISSIONS|
    ensures Index(PROJECT_SCOPED_PERMISSIONS[i]) == i + 16
  {
  }

  // ---------------------------------------------------------------------------
  // Roles

  datatype Role = Role(id: MemberRole, description: string, permissions: seq<Permission>)

  /** A member's role with its environment restriction (`MemberRoleInfo`). */
  datatype MemberRoleInfo =
    MemberRoleInfo(role: MemberRole, limitAccessByEnvironment: bool, environments: seq<string>)

  datatype Environment = Environment(id: string)

  /** `OrganizationSettings`, the two settings the modelled code reads. */
  datatype OrgSettings =
    OrgSettings(defaultRole: Option<MemberRoleInfo>, environments: Option<seq<Environment>>)

  datatype OrganizationInterface = OrganizationInterface(id: string, settings: Option<OrgSettings>)

  const COLLABORATOR_PERMISSIONS: seq<Permission> := [AddComments, CreateIdeas, CreatePresentations]

  const ENGINEER_PERMISSIONS: seq<Permission> :=
    [AddComments, CreateIdeas, CreatePresentations, PublishFeatures, ManageFeatures,
     ManageTags, CreateFeatureDrafts, ManageTargetingAttributes, ManageEnvironments,
     ManageNamespaces, ManageSavedGroups, RunExperiments]

  const ANALYST_PERMISSIONS: seq<Permission> :=
    [AddComments, CreateIdeas, CreatePresentations, CreateAnalyses, CreateDimensions,
     CreateMetrics, ManageTags, RunQueries, EditDatasourceSettings]

  const EXPERIMENTER_PERMISSIONS: seq<Permission> :=
    [AddComments, CreateIdeas, CreatePresentations, PublishFeatures, ManageFeatures,
     CreateFeatureDrafts, ManageTargetingAttributes, ManageEnvironments, ManageNamespaces,
     ManageSavedGroups, ManageTags, RunExperiments, CreateAnalyses, CreateDimensions,
     CreateSegments, CreateMetrics, RunQueries, EditDatasourceSettings]

  const READONLY_DESCRIPTION := "View all features and experiment results"
  const COLLABORATOR_DESCRIPTION := "Add comments and contribute ideas"
  const ENGINEER_DESCRIPTION := "Manage features"
  const ANALYST_DESCRIPTION := "Analyze experiments"
  const EXPERIMENTER_DESCRIPTION := "Manage features AND Analyze experiments"
  const ADMIN_DESCRIPTION := "All access + invite teammates and configure organization settings"

  const ROLES: seq<Role> := [
    Role(Readonly, READONLY_DESCRIPTION, []),
    Role(Collaborator, COLLABORATOR_DESCRIPTION, COLLABORATOR_PERMISSIONS),
    Role(Engineer, ENGINEER_DESCRIPTION, ENGINEER_PERMISSIONS),
    Role(Analyst, ANALYST_DESCRIPTION, ANALYST_PERMISSIONS),
    Role(Experimenter, EXPERIMENTER_DESCRIPTION, EXPERIMENTER_PERMISSIONS),
    Role(Admin, ADMIN_DESCRIPTION, ALL_PERMISSIONS)
  ]

  /** The built-in roles; the organization is not consulted (no custom roles). */
  function GetRoles(organization: OrganizationInterface): (roles: seq<Role>)
    ensures |roles| == 6
    ensures [roles[0].id, roles[1].id, roles[2].id, roles[3].id, roles[4].id, roles[5].id]
         == [Readonly, Collaborator, Engineer, Analyst, Experimenter, Admin]
  {
    ROLES
  }

  lemma GetRolesIgnoresOrganization(a: OrganizationInterface, b: OrganizationInterface)
    ensures GetRoles(a) == GetRoles(b)
  {
  }

  /** `roles.find((r) => r.id === id)`: the first role with that id. */
  function FindRole(roles: seq<Role>, id: MemberRole): (r: Option<Role>)
    ensures r.None? <==> forall i :: 0 <= i < |roles| ==> roles[i].id != id
    ensures r.Some? ==> exists i :: 0 <= i < |roles| && roles[i] == r.value && r.value.id == id &&
                          forall j :: 0 <= j < i ==> roles[j].id != id
  {
    if roles == [] then None
    else if roles[0].id == id then Some(roles[0])
    else
      var r := FindRole(roles[1..], id);
      if r.Some? then
        ghost var i :| 0 <= i < |roles[1..]| && roles[1..][i] == r.value && r.value.id == id &&
                       forall j :: 0 <= j < i ==> roles[1..][j].id != id;
        assert roles[i + 1] == r.value;
        r
      else r
  }

  /** The permissions the role table gives a role (none for a role without an entry). */
  function RolePermissions(id: MemberRole): seq<Permission> {
    match FindRole(ROLES, id)
    case Some(role) => role.permissions
    case None => []
  }

  /** The first role carrying the id is the one found. */
  lemma {:induction false} FindRoleAt(roles: seq<Role>, id: MemberRole, k: nat)
    requires k < |roles| && roles[k].id == id
    requires forall j :: 0 <= j < k ==> roles[j].id != id
    ensures FindRole(roles, id) == Some(roles[k])
  {
    if k > 0 {
      FindRoleAt(roles[1..], id, k - 1);
    }
  }

  /** The permission list written beside each role in the table. */
  function TablePermissions(id: MemberRole): seq<Permission> {
    match id
    case Readonly => []
    case Collaborator => COLLABORATOR_PERMISSIONS
    case Engineer => ENGINEER_PERMISSIONS
    case Analyst => ANALYST_PERMISSIONS
    case Experimenter => EXPERIMENTER_PERMISSIONS
    case Admin => ALL_PERMISSIONS
    case _ => []
  }

  /** The role table's entry for each role; designer and developer have none. */
  lemma FindRoleInTable(id: MemberRole)
    ensures id in {Designer, Developer} <==> FindRole(ROLES, id).None?
    ensures RolePermissions(id) == TablePermissions(id)
  {
    match id
    case Readonly => EarlyEntries();
    case Collaborator => EarlyEntries();
    case Engineer => MiddleEntries();
    case Analyst => MiddleEntries();
    case Experimenter => LateEntries();
    case Admin => LateEntries();
    case _ => UnlistedEntries();
  }

  lemma EarlyEntries()
    ensures FindRole(ROLES, Readonly).Some? && RolePermissions(Readonly) == []
    ensures FindRole(ROLES, Collaborator).Some? && RolePermissions(Collaborator) == COLLABORATOR_PERMISSIONS
  {
    FindRoleAt(ROLES, Readonly, 0);
    FindRoleAt(ROLES, Collaborator, 1);
  }

  lemma MiddleEntries()
    ensures FindRole(ROLES, Engineer).Some? && RolePermissions(Engineer) == ENGINEER_PERMISSIONS
    ensures FindRole(ROLES, Analyst).Some? && RolePermissions(Analyst) == ANALYST_PERMISSIONS
  {
    FindRoleAt(ROLES, Engineer, 2);
    FindRoleAt(ROLES, Analyst, 3);
  }

  lemma LateEntries()
    ensures FindRole(ROLES, Experimenter).Some? && RolePermissions(Experimenter) == EXPERIMENTER_PERMISSIONS
    ensures FindRole(ROLES, Admin).Some? && RolePermissions(Admin) == ALL_PERMISSIONS
  {
    FindRoleAt(ROLES, Experimenter, 4);
    FindRoleAt(ROLES, Admin, 5);
  }

  lemma UnlistedEntries()
    ensures FindRole(ROLES, Designer).None? && RolePermissions(Designer) == []
    ensures FindRole(ROLES, Developer).None? && RolePermissions(Developer) == []
  {
  }

  lemma ReadonlyHasNoPermission()
    ensures RolePermissions(Readonly) == []
  {
    FindRoleInTable(Readonly);
  }

  lemma AdminHasEveryPermission()
    ensures RolePermissions(Admin) == ALL_PERMISSIONS
    ensures forall p: Permission :: p in RolePermissions(Admin)
  {
    FindRoleInTable(Admin);
    AllPermissionsShape();
  }

  lemma UnlistedRolesHaveNoPermission()
    ensures RolePermissions(Designer) == [] && RolePermissions(Developer) == []
  {
    FindRoleInTable(Designer);
    FindRoleInTable(Developer);
  }

  /** Every role's permissions are among ALL_PERMISSIONS. This says nothing about the
      role lists themselves: it holds because ALL_PERMISSIONS names every `Permission`. */
  lemma EveryRoleWithinAllPermissions(id: MemberRole)
    ensures forall p :: p in RolePermissions(id) ==> p in ALL_PERMISSIONS
  {
    AllPermissionsShape();
  }

  /** "Manage features AND Analyze experiments": the experimenter holds every engineer
      and every analyst permission, and one more (createSegments) than the two together. */
  lemma ExperimenterCombinesEngineerAndAnalyst()
    ensures forall p :: p in RolePermissions(Engineer) ==> p in RolePermissions(Experimenter)
    ensures forall p :: p in RolePermissions(Analyst) ==> p in RolePermissions(Experimenter)
    ensures forall p :: p in RolePermissions(Experimenter) ==>
      p in RolePermissions(Engineer) || p in RolePermissions(Analyst) || p == CreateSegments
    ensures CreateSegments in RolePermissions(Experimenter)
    ensures CreateSegments !in RolePermissions(Engineer) && CreateSegments !in RolePermissions(Analyst)
  {
    FindRoleInTable(Engineer);
    FindRoleInTable(Analyst);
    FindRoleInTable(Experimenter);
    ExperimenterTableCovers();
    ExperimenterTableWithin();
  }

  lemma ExperimenterTableCovers()
    ensures forall p :: p in ENGINEER_PERMISSIONS ==> p in EXPERIMENTER_PERMISSIONS
    ensures forall p :: p in ANALYST_PERMISSIONS ==> p in EXPERIMENTER_PERMISSIONS
    ensures CreateSegments in EXPERIMENTER_PERMISSIONS
    ensures CreateSegments !in ENGINEER_PERMISSIONS && CreateSegments !in ANALYST_PERMISSIONS
  {
  }

  /** The experimenter's list holds nothing beyond the engineer's, the analyst's and createSegments. */
  lemma ExperimenterTableWithin()
    ensures forall p :: p in EXPERIMENTER_PERMISSIONS ==>
      p in ENGINEER_PERMISSIONS || p in ANALYST_PERMISSIONS || p == CreateSegments
  {
  }

  /** The collaborator's permissions are shared by every role above it. */
  lemma CollaboratorBelowEveryEditingRole(r: MemberRole)
    requires r in {Engineer, Analyst, Experimenter, Admin}
    ensures forall p :: p in RolePermissions(Collaborator) ==> p in RolePermissions(r)
  {
    FindRoleInTable(Collaborator);
    FindRoleInTable(r);
    AllPermissionsShape();
  }

  lemma RoleTablesHaveNoDuplicates(id: MemberRole)
    ensures NoDuplicates(RolePermissions(id))
  {
    FindRoleInTable(id);
    match id
    case Admin => AllPermissionsShape();
    case Collaborator => FreshByPrefix(COLLABORATOR_PERMISSIONS);
    case Engineer => FreshByPrefix(ENGINEER_PERMISSIONS);
    case Analyst => FreshByPrefix(ANALYST_PERMISSIONS);
    case Experimenter => FreshByPrefix(EXPERIMENTER_PERMISSIONS);
    case _ =>
  }

  lemma FreshByPrefix(ps: seq<Permission>)
    requires ps in [COLLABORATOR_PERMISSIONS, ENGINEER_PERMISSIONS, ANALYST_PERMISSIONS, EXPERIMENTER_PERMISSIONS]
    ensures NoDuplicates(ps)
  {
    assert forall i :: 0 <= i < |ps| ==> ps[i] !in ps[..i];
    NoDuplicatesByPrefix(ps);
  }

  /** The role's permissions through a `Set`: no duplicates, and exactly the permissions
      the role table lists (none when the role has no entry). */
  function GetPermissionsByRole(role: MemberRole, org: OrganizationInterface): (ps: seq<Permission>)
    ensures NoDuplicates(ps)
    ensures forall p :: p in ps <==> p in RolePermissions(role)
  {
    var orgRole := FindRole(GetRoles(org), role);
    Dedupe(if orgRole.Some? then orgRole.value.permissions else [])
  }

  /** Since no table lists a permission twice, the de-duplication keeps the table's order. */
  lemma PermissionsByRoleAreTheTable(role: MemberRole, org: OrganizationInterface)
    ensures GetPermissionsByRole(role, org) == RolePermissions(role)
  {
    RoleTablesHaveNoDuplicates(role);
    DedupeOfDistinct(RolePermissions(role));
  }

  /** `settings.defaultRole`, else a collaborator without environment restriction. */
  function GetDefaultRole(organization: OrganizationInterface): (info: MemberRoleInfo)
    ensures (organization.settings.Some? && organization.settings.value.defaultRole.Some?) ==>
              info == organization.settings.value.defaultRole.value
    ensures (organization.settings.None? || organization.settings.value.defaultRole.None?) ==>
              info == MemberRoleInfo(Collaborator, false, [])
  {
    if organization.settings.Some? && organization.settings.value.defaultRole.Some?
    then organization.settings.value.defaultRole.value
    else MemberRoleInfo(Collaborator, false, [])
  }

  /** A member added without a configured default gets the collaborator's permissions,
      in every environment; with one configured, exactly that role and restriction. */
  lemma DefaultRoleIsConfiguredOrCollaborator(organization: OrganizationInterface)
    ensures var info := GetDefaultRole(organization);
      && (organization.settings.Some? && organization.settings.value.defaultRole.Some? ==>
            info == organization.settings.value.defaultRole.value)
      && (organization.settings.None? || organization.settings.value.defaultRole.None? ==>
            RolePermissions(info.role) == COLLABORATOR_PERMISSIONS &&
            !info.limitAccessByEnvironment && info.environments == [])
  {
    EarlyEntries();
  }

  // ---------------------------------------------------------------------------
  // Per-user permission maps

  /** One of a member's per-project roles. */
  datatype ProjectRole = ProjectRole(
    project: string, role: MemberRole,
    limitAccessByEnvironment: Option<bool>, environments: Option<seq<string>>)

  /** The member record `getUserPermissions` receives. */
  datatype Member = Member(
    id: string, role: MemberRole,
    limitAccessByEnvironment: Option<bool>, environments: Option<seq<string>>,
    projectRoles: seq<ProjectRole>)

  /** A boolean per permission, with the environments the grant is limited to. */
  datatype PermissionSet = PermissionSet(
    environments: seq<string>, limitAccessByEnvironment: bool, permissions: map<Permission, bool>)

  datatype UserPermissions = UserPermissions(global: PermissionSet, projects: map<string, PermissionSet>)

  predicate Grants(role: Option<Role>, p: Permission) {
    role.Some? && p in role.value.permissions
  }

  /** The flag map written by `ALL_PERMISSIONS.forEach`. */
  function PermissionFlags(role: Option<Role>): map<Permission, bool> {
    map p | p in ALL_PERMISSIONS :: Grants(role, p)
  }

  function ProjectOf(pr: ProjectRole): string {
    pr.project
  }

  /** The flag written for a permission is whether the role's table entry lists it. */
  lemma PermissionFlagsAt(id: MemberRole, p: Permission)
    ensures p in PermissionFlags(FindRole(ROLES, id))
    ensures PermissionFlags(FindRole(ROLES, id))[p] <==> p in RolePermissions(id)
  {
    var role := FindRole(ROLES, id);
    FlagOf(role, p);
    assert Grants(role, p) <==> p in RolePermissions(id);
  }

  /** Every permission has a flag, and the flag says whether the role grants it. */
  lemma FlagOf(role: Option<Role>, p: Permission)
    ensures p in PermissionFlags(role) && PermissionFlags(role)[p] == Grants(role, p)
  {
    AllPermissionsShape();
  }

  /** The entry written for one project role. */
  function ProjectPermissionSet(pr: ProjectRole): PermissionSet {
    PermissionSet(
      pr.environments.GetOr([]), IsTrue(pr.limitAccessByEnvironment),
      PermissionFlags(FindRole(ROLES, pr.role)))
  }

  /** The global entry as written: the environment fields are read from `user.role`,
      which is a role name and has neither field, so the defaults always apply. */
  function GlobalPermissionSetAsWritten(user: Member): (entry: PermissionSet)
    ensures entry.environments == [] && !entry.limitAccessByEnvironment
    ensures entry.permissions == PermissionFlags(FindRole(ROLES, user.role))
  {
    PermissionSet([], false, PermissionFlags(FindRole(ROLES, user.role)))
  }

  /** The global entry as evidently intended: the member's own environment restriction,
      defaulting to none, beside the flags of the member's role. */
  function GlobalPermissionSet(user: Member): (entry: PermissionSet)
    ensures entry.limitAccessByEnvironment <==> user.limitAccessByEnvironment == Some(true)
    ensures user.environments.Some? ==> entry.environments == user.environments.value
    ensures user.environments.None? ==> entry.environments == []
    ensures entry.permissions == GlobalPermissionSetAsWritten(user).permissions
  {
    PermissionSet(
      user.environments.GetOr([]), IsTrue(user.limitAccessByEnvironment),
      PermissionFlags(FindRole(ROLES, user.role)))
  }

  /** What `getUserPermissions` returns for a member. */
  function UserPermissionsOf(user: Member): UserPermissions {
    UserPermissions(GlobalPermissionSet(user), AssignAll(user.projectRoles, ProjectOf, ProjectPermissionSet))
  }

  /** `ALL_PERMISSIONS.forEach((permission) => flags[permission] = ...)`. */
  method WritePermissionFlags(role: Option<Role>) returns (flags: map<Permission, bool>)
    ensures flags == PermissionFlags(role)
  {
    flags := map[];
    for i := 0 to |ALL_PERMISSIONS|
      invariant flags.Keys == set j | 0 <= j < i :: ALL_PERMISSIONS[j]
      invariant forall p :: p in flags ==> flags[p] == Grants(role, p)
    {
      flags := flags[ALL_PERMISSIONS[i] := Grants(role, ALL_PERMISSIONS[i])];
    }
    assert flags.Keys == set p | p in ALL_PERMISSIONS;
  }

  method GetUserPermissions(user: Member, org: OrganizationInterface) returns (up: UserPermissions)
    ensures up == UserPermissionsOf(user)
  {
    var roles := GetRoles(org);
    var globalRolePermissions := FindRole(roles, user.role);
    var globalFlags := WritePermissionFlags(globalRolePermissions);
    // the member's restriction, where the source reads it from `user.role`
    var global := PermissionSet(user.environments.GetOr([]), IsTrue(user.limitAccessByEnvironment), globalFlags);
    var projects: map<string, PermissionSet> := map[];
    for i := 0 to |user.projectRoles|
      invariant projects == AssignAll(user.projectRoles[..i], ProjectOf, ProjectPermissionSet)
    {
      var projectRole := user.projectRoles[i];
      var projectRolePermissions := FindRole(roles, projectRole.role);
      var flags := WritePermissionFlags(projectRolePermissions);
      projects := projects[projectRole.project := PermissionSet(
        projectRole.environments.GetOr([]), IsTrue(projectRole.limitAccessByEnvironment), flags)];
      AssignAllStep(user.projectRoles, i, ProjectOf, ProjectPermissionSet);
    }
    assert user.projectRoles[..|user.projectRoles|] == user.projectRoles;
    up := UserPermissions(global, projects);
  }

  /** Every permission has a global flag, true exactly when the member's role lists it;
      a role without an entry in the table gets every flag false. */
  lemma GlobalFlagsFollowRole(user: Member, p: Permission)
    ensures p in UserPermissionsOf(user).global.permissions
    ensures UserPermissionsOf(user).global.permissions[p] <==> p in RolePermissions(user.role)
    ensures user.role in {Designer, Developer, Readonly} ==> !UserPermissionsOf(user).global.permissions[p]
    ensures user.role == Admin ==> UserPermissionsOf(user).global.permissions[p]
  {
    PermissionFlagsAt(user.role, p);
    FindRoleInTable(user.role);
    AdminHasEveryPermission();
  }

  /** There is one project entry per distinct project of the member's project roles. */
  lemma ProjectEntriesPerProject(user: Member)
    ensures UserPermissionsOf(user).projects.Keys == set i | 0 <= i < |user.projectRoles| :: user.projectRoles[i].project
  {
    AssignAllKeys(user.projectRoles, ProjectOf, ProjectPermissionSet);
  }

  /** The last project role naming a project decides that project's entry: its flags
      follow that role, and the environment fields default to `false` and `[]`. */
  lemma LastProjectRoleWins(user: Member, i: nat, p: Permission)
    requires i < |user.projectRoles|
    requires forall j :: i < j < |user.projectRoles| ==> user.projectRoles[j].project != user.projectRoles[i].project
    ensures user.projectRoles[i].project in UserPermissionsOf(user).projects
    ensures var pr := user.projectRoles[i];
      var entry := UserPermissionsOf(user).projects[pr.project];
      && entry.limitAccessByEnvironment == (pr.limitAccessByEnvironment == Some(true))
      && entry.environments == (if pr.environments.Some? then pr.environments.value else [])
      && p in entry.permissions
      && (entry.permissions[p] <==> p in RolePermissions(pr.role))
  {
    AssignAllLast(user.projectRoles, i, ProjectOf, ProjectPermissionSet);
    PermissionFlagsAt(user.projectRoles[i].role, p);
  }

  /** As written, the member's own environment restriction never reaches the global
      entry: a member limited to production is granted everywhere. */
  lemma GlobalEntryDropsMemberRestriction()
    ensures var user := Member("u1", Engineer, Some(true), Some(["production"]), []);
      && GlobalPermissionSetAsWritten(user).limitAccessByEnvironment == false
      && GlobalPermissionSetAsWritten(user).environments == []
      && GlobalPermissionSet(user).limitAccessByEnvironment == true
      && GlobalPermissionSet(user).environments == ["production"]
  {
  }

  /** The written entry and the intended one differ only in the environment fields, and
      agree exactly when the member sets no restriction and no environments. */
  lemma AsWrittenAgreesOnlyWithoutRestriction(user: Member)
    ensures GlobalPermissionSetAsWritten(user).permissions == UserPermissionsOf(user).global.permissions
    ensures GlobalPermissionSetAsWritten(user) == UserPermissionsOf(user).global <==>
      user.limitAccessByEnvironment != Some(true) && (user.environments.None? || user.environments.value == [])
  {
  }
}

=== FILE: percent_graph.dfy ===
/** The props `PercentGraph` hands to the aligned graph of one result row. */
module PercentGraph {
  import opened Options
  import opened ExperimentStats

  datatype BarType = Pill | Violin
  datatype BarFillType = SignificantFill | Gradient

  /** The props that depend on the inputs (id, domain, sizes and hover state are passed through). */
  datatype GraphProps = GraphProps(
    ci: seq<real>, uplift: Option<Uplift>, expected: Option<real>,
    barType: BarType, barFillType: BarFillType,
    axisOnly: bool, showAxis: bool, significant: bool, inverse: bool, newUi: bool)

  /** An explicit bar type wins; otherwise a violin when the uplift names a distribution. */
  function ChooseBarType(requested: Option<BarType>, stats: SnapshotMetric): (barType: BarType)
    ensures requested.Some? ==> barType == requested.value
    ensures requested.None? ==> (barType == Violin <==> stats.uplift.Some? && stats.uplift.value.dist != "")
  {
    if requested.Some? then requested.value
    else if stats.uplift.Some? && stats.uplift.value.dist != "" then Violin
    else Pill
  }

  /** `PercentGraph`. `significant` starts as the chance-to-win rule and is replaced by
      the p-value rule for a pill in the new UI; both are false without a graph. */
  function PercentGraphProps(
    metric: Option<Metric>, baseline: SnapshotMetric, stats: SnapshotMetric,
    requestedBarType: Option<BarType>, newUi: bool,
    ciUpper: real, ciLower: real, pValueThreshold: real, oracles: StatsOracles): GraphProps
  {
    var enoughData := oracles.hasEnoughData(baseline, stats, metric);
    var barType := ChooseBarType(requestedBarType, stats);
    var showGraph := metric.Some? && enoughData;
    var significant := showGraph && ChanceToWinSignificant(stats, ciUpper, ciLower);
    var significant :=
      if newUi && barType == Pill then showGraph && PValueSignificant(stats, pValueThreshold, oracles)
      else significant;
    GraphProps(
      ci := if showGraph then stats.ci.GetOr([]) else [0.0, 0.0],
      uplift := if showGraph then stats.uplift else None,
      expected := if showGraph then stats.expected else None,
      barType := barType,
      barFillType := if newUi then SignificantFill else Gradient,
      axisOnly := !showGraph,
      showAxis := false,
      significant := significant,
      inverse := metric.Some? && metric.value.inverse,
      newUi := newUi)
  }

  /** The graph is drawn iff a metric is given and there is enough data; otherwise only
      the axis is drawn, with an empty interval, no uplift or expectation, and never
      significant. */
  lemma NoGraphWithoutData(
    metric: Option<Metric>, baseline: SnapshotMetric, stats: SnapshotMetric,
    requestedBarType: Option<BarType>, newUi: bool,
    ciUpper: real, ciLower: real, pValueThreshold: real, oracles: StatsOracles)
    ensures var g := PercentGraphProps(metric, baseline, stats, requestedBarType, newUi, ciUpper, ciLower, pValueThreshold, oracles);
      && (!g.axisOnly <==> metric.Some? && oracles.hasEnoughData(baseline, stats, metric))
      && (g.axisOnly ==> !g.significant && g.ci == [0.0, 0.0] && g.uplift.None? && g.expected.None?)
      && (!g.axisOnly ==> g.uplift == stats.uplift && g.expected == stats.expected &&
                          g.ci == (if stats.ci.Some? then stats.ci.value else []))
      && !g.showAxis
  {
  }

  /** With a graph, the significance rule depends only on the UI and the bar type: the
      p-value test for a new-UI pill, the chance-to-win test in every other case
      (an old-UI pill included). */
  lemma SignificanceRule(
    metric: Metric, baseline: SnapshotMetric, stats: SnapshotMetric,
    requestedBarType: Option<BarType>, newUi: bool,
    ciUpper: real, ciLower: real, pValueThreshold: real, oracles: StatsOracles)
    requires oracles.hasEnoughData(baseline, stats, Some(metric))
    ensures var g := PercentGraphProps(Some(metric), baseline, stats, requestedBarType, newUi, ciUpper, ciLower, pValueThreshold, oracles);
      && (newUi && g.barType == Pill ==> (g.significant <==> PValueSignificant(stats, pValueThreshold, oracles)))
      && (!(newUi && g.barType == Pill) ==> (g.significant <==> ChanceToWinSignificant(stats, ciUpper, ciLower)))
  {
  }

  /** The fill is "significant" exactly in the new UI; `inverse` is the metric's flag. */
  lemma FillAndInverse(
    metric: Option<Metric>, baseline: SnapshotMetric, stats: SnapshotMetric,
    requestedBarType: Option<BarType>, newUi: bool,
    ciUpper: real, ciLower: real, pValueThreshold: real, oracles: StatsOracles)
    ensures var g := PercentGraphProps(metric, baseline, stats, requestedBarType, newUi, ciUpper, ciLower, pValueThreshold, oracles);
      && (g.barFillType == SignificantFill <==> newUi)
      && (g.inverse <==> metric.Some? && metric.value.inverse)
      && g.barType == ChooseBarType(requestedBarType, stats)
  {
  }
}

=== FILE: post_feature.dfy ===
/** Creating a feature through the REST API: checking the request's environment keys
    against the organization's, and the defaults of the stored feature. */
module PostFeature {
  import opened Options
  import Organization

  // ---------------------------------------------------------------------------
  // Environment keys

  /** The keys of the organization's environments, none when it has no setting. */
  function OrgEnvKeys(organization: Organization.OrganizationInterface): (keys: seq<string>)
    ensures organization.settings.None? || organization.settings.value.environments.None? ==> keys == []
    ensures organization.settings.Some? && organization.settings.value.environments.Some? ==>
      var envs := organization.settings.value.environments.value;
      |keys| == |envs| && forall i :: 0 <= i < |envs| ==> keys[i] == envs[i].id
  {
    if organization.settings.Some? && organization.settings.value.environments.Some? then
      var envs := organization.settings.value.environments.value;
      seq(|envs|, i requires 0 <= i < |envs| => envs[i].id)
    else []
  }

  /** `incomingEnvKeys.filter((k) => !orgEnvKeys.includes(k))`, in incoming order. */
  function InvalidKeys(orgEnvKeys: seq<string>, incomingEnvKeys: seq<string>): (invalid: seq<string>)
    ensures |invalid| <= |incomingEnvKeys|
    ensures forall k :: k in invalid <==> k in incomingEnvKeys && k !in orgEnvKeys
  {
    if incomingEnvKeys == [] then []
    else
      var last := incomingEnvKeys[|incomingEnvKeys| - 1];
      var front := incomingEnvKeys[..|incomingEnvKeys| - 1];
      assert incomingEnvKeys == front + [last];
      InvalidKeys(orgEnvKeys, front) + (if last in orgEnvKeys then [] else [last])
  }

  /** The filter keeps the incoming order: the invalid keys of two runs of keys are
      the invalid keys of the first followed by those of the second. */
  lemma {:induction false} InvalidKeysOfConcat(orgEnvKeys: seq<string>, a: seq<string>, b: seq<string>)
    ensures InvalidKeys(orgEnvKeys, a + b) == InvalidKeys(orgEnvKeys, a) + InvalidKeys(orgEnvKeys, b)
    decreases |b|
  {
    if b == [] {
      assert a + b == a;
    } else {
      var front := b[..|b| - 1];
      var last := b[|b| - 1];
      var tail := if last in orgEnvKeys then [] else [last];
      assert (a + b)[..|a + b| - 1] == a + front;
      assert (a + b)[|a + b| - 1] == last;
      calc {
        InvalidKeys(orgEnvKeys, a + b);
        InvalidKeys(orgEnvKeys, a + front) + tail;
        { InvalidKeysOfConcat(orgEnvKeys, a, front); }
        InvalidKeys(orgEnvKeys, a) + InvalidKeys(orgEnvKeys, front) + tail;
        InvalidKeys(orgEnvKeys, a) + InvalidKeys(orgEnvKeys, b);
      }
    }
  }

  /** Keys the organization all has leave nothing to report. */
  lemma {:induction false} KnownKeysAreValid(orgEnvKeys: seq<string>, incomingEnvKeys: seq<string>)
    requires forall i :: 0 <= i < |incomingEnvKeys| ==> incomingEnvKeys[i] in orgEnvKeys
    ensures InvalidKeys(orgEnvKeys, incomingEnvKeys) == []
    decreases |incomingEnvKeys|
  {
    if incomingEnvKeys != [] {
      var front := incomingEnvKeys[..|incomingEnvKeys| - 1];
      assert forall i :: 0 <= i < |front| ==> front[i] == incomingEnvKeys[i];
      KnownKeysAreValid(orgEnvKeys, front);
    }
  }

  /** A single key is listed exactly when the organization lacks it. */
  lemma InvalidKeysOfOne(orgEnvKeys: seq<string>, k: string)
    ensures InvalidKeys(orgEnvKeys, [k]) == (if k in orgEnvKeys then [] else [k])
  {
    assert [k][..0] == [];
  }

  /** `xs.join(separator)`. */
  function Join(xs: seq<string>, separator: string): (joined: string)
    ensures xs == [] ==> joined == ""
    ensures |xs| == 1 ==> joined == xs[0]
  {
    if xs == [] then ""
    else if |xs| == 1 then xs[0]
    else Join(xs[..|xs| - 1], separator) + separator + xs[|xs| - 1]
  }

  /** Appending one more key adds the separator and the key. */
  lemma JoinStep(xs: seq<string>, x: string, separator: string)
    requires |xs| >= 1
    ensures Join(xs + [x], separator) == Join(xs, separator) + separator + x
  {
    assert (xs + [x])[..|xs|] == xs;
  }

  lemma JoinTwo(a: string, b: string, separator: string)
    ensures Join([a, b], separator) == a + separator + b
  {
    assert [a, b][..1] == [a];
  }

  datatype Validation = Pass | Fail(message: string)

  const NOT_RECOGNIZED_OPEN := "Environment key(s) '"
  const NOT_RECOGNIZED_CLOSE :=
    "' not recognized. Please create the environment or remove it from your environment settings and try again."

  function NotRecognizedMessage(invalid: seq<string>): string {
    NOT_RECOGNIZED_OPEN + Join(invalid, "', '") + NOT_RECOGNIZED_CLOSE
  }

  /** `validateEnvKeys`: fails exactly when some incoming key is not the organization's,
      naming the unrecognized keys. */
  function ValidateEnvKeys(orgEnvKeys: seq<string>, incomingEnvKeys: seq<string>): (v: Validation)
    ensures v.Pass? <==> forall i :: 0 <= i < |incomingEnvKeys| ==> incomingEnvKeys[i] in orgEnvKeys
    ensures v.Fail? ==> v.message == NotRecognizedMessage(InvalidKeys(orgEnvKeys, incomingEnvKeys))
  {
    var invalid := InvalidKeys(orgEnvKeys, incomingEnvKeys);
    if |invalid| > 0 then
      assert invalid[0] in incomingEnvKeys && invalid[0] !in orgEnvKeys;
      Fail(NotRecognizedMessage(invalid))
    else
      assert forall i :: 0 <= i < |incomingEnvKeys| ==> incomingEnvKeys[i] !in invalid;
      Pass
  }

  /** A request without environments, or naming only the organization's own, passes. */
  lemma OwnKeysPass(organization: Organization.OrganizationInterface, incomingEnvKeys: seq<string>)
    requires forall k :: k in incomingEnvKeys ==> k in OrgEnvKeys(organization)
    ensures ValidateEnvKeys(OrgEnvKeys(organization), []) == Pass
    ensures ValidateEnvKeys(OrgEnvKeys(organization), incomingEnvKeys) == Pass
  {
    var keys := OrgEnvKeys(organization);
    assert forall i :: 0 <= i < |incomingEnvKeys| ==> incomingEnvKeys[i] in keys;
  }

  /** One unknown key after known ones is named alone in the message. */
  lemma OneUnknownKeyMessage(orgEnvKeys: seq<string>, known: seq<string>, k: string)
    requires forall i :: 0 <= i < |known| ==> known[i] in orgEnvKeys
    requires k !in orgEnvKeys
    ensures ValidateEnvKeys(orgEnvKeys, known + [k]) == Fail(NOT_RECOGNIZED_OPEN + k + NOT_RECOGNIZED_CLOSE)
  {
    KnownKeysAreValid(orgEnvKeys, known);
    InvalidKeysOfConcat(orgEnvKeys, known, [k]);
    InvalidKeysOfOne(orgEnvKeys, k);
    assert InvalidKeys(orgEnvKeys, known + [k]) == [k];
    assert ValidateEnvKeys(orgEnvKeys, known + [k]) == Fail(NotRecognizedMessage([k]));
    assert Join([k], "', '") == k;
  }

  // ---------------------------------------------------------------------------
  // Lower-casing the id

  function LowerChar(c: char): char {
    if 'A' <= c <= 'Z' then (c as int - 'A' as int + 'a' as int) as char else c
  }

  /** `toLowerCase` on the ASCII letters: no capital is left, each capital becomes the
      letter 32 code points above it, and every other character stays where it was. */
  function ToLower(s: string): (lower: string)
    ensures |lower| == |s|
    ensures forall i :: 0 <= i < |s| ==> !('A' <= lower[i] <= 'Z')
    ensures forall i :: 0 <= i < |s| && 'A' <= s[i] <= 'Z' ==> lower[i] as int == s[i] as int + 32
    ensures forall i :: 0 <= i < |s| && !('A' <= s[i] <= 'Z') ==> lower[i] == s[i]
  {
    seq(|s|, i requires 0 <= i < |s| => LowerChar(s[i]))
  }

  /** Lower-casing twice changes nothing, and an id is stored unchanged exactly when it
      has no capital letter. */
  lemma ToLowerProperties(s: string)
    ensures ToLower(ToLower(s)) == ToLower(s)
    ensures ToLower(s) == s <==> forall i :: 0 <= i < |s| ==> !('A' <= s[i] <= 'Z')
  {
    if ToLower(s) == s {
      assert forall i :: 0 <= i < |s| ==> !('A' <= ToLower(s)[i] <= 'Z');
    }
  }

  // ---------------------------------------------------------------------------
  // The new feature

  /** The request body fields the feature literal reads. */
  datatype FeatureRequest = FeatureRequest(
    id: string, defaultValue: Option<string>, valueType: string, owner: string,
    description: Option<string>, project: Option<string>, archived: Option<bool>)

  datatype Publisher = Publisher(id: string, email: string, name: string)
  datatype Revision = Revision(version: int, comment: string, date: int, publishedBy: Publisher)
  datatype JsonSchema = JsonSchema(schema: string, date: int, enabled: bool)

  /** `FeatureInterface`; `E` is the environment settings built by a helper outside this model. */
  datatype Feature<E> = Feature(
    defaultValue: string, valueType: string, owner: string, description: string,
    project: string, dateCreated: int, dateUpdated: int, organization: string,
    id: string, archived: bool, revision: Revision, jsonSchema: JsonSchema,
    environmentSettings: E)

  /** The feature literal built for a request; `now` is the creation time. */
  function NewFeature<E>(req: FeatureRequest, organizationId: string, now: int, environmentSettings: E): Feature<E> {
    Feature(
      req.defaultValue.GetOr(""), req.valueType, req.owner,
      OrElse(req.description, ""), OrElse(req.project, ""),
      now, now, organizationId, ToLower(req.id), IsTrue(req.archived),
      Revision(1, "New feature", now, Publisher(req.owner, req.owner, req.owner)),
      JsonSchema("", now, false),
      environmentSettings)
  }

  /** The id is the request's id lower-cased; the value type and owner are the request's;
      a sent description or project is kept and a missing one becomes the empty string;
      `archived` is true only when sent as true; the feature is created and updated at
      `now` and starts at revision 1, dated `now` and published by its owner, with its
      JSON schema off. */
  lemma NewFeatureDefaults<E>(req: FeatureRequest, organizationId: string, now: int, environmentSettings: E)
    ensures var f := NewFeature(req, organizationId, now, environmentSettings);
      && (req.defaultValue.None? ==> f.defaultValue == "")
      && (req.defaultValue.Some? ==> f.defaultValue == req.defaultValue.value)
      && (Truthy(req.description) ==> f.description == req.description.value)
      && (!Truthy(req.description) ==> f.description == "")
      && (Truthy(req.project) ==> f.project == req.project.value)
      && (!Truthy(req.project) ==> f.project == "")
      && (f.archived <==> req.archived == Some(true))
      && f.id == ToLower(req.id)
      && f.valueType == req.valueType && f.owner == req.owner
      && f.dateCreated == now && f.dateUpdated == now
      && f.revision.version == 1 && f.revision.comment == "New feature" && f.revision.date == now
      && f.revision.publishedBy == Publisher(req.owner, req.owner, req.owner)
      && !f.jsonSchema.enabled && f.jsonSchema.schema == ""
      && f.organization == organizationId && f.environmentSettings == environmentSettings
  {
  }
}

=== FILE: pvalue_guardrail.dfy ===
/** The frequentist guardrail cell: the four-way status and what the cell shows. */
module PValueGuardrail {
  import opened Options
  import opened ExperimentStats

  datatype GuardrailStatus = Ok | Warning | Danger | NonSignificant

  /** Exactly one status per combination of direction and significance. */
  function GetPValueGuardrailStatus(expectedDirection: bool, statSig: bool): (status: GuardrailStatus)
    ensures status == Ok <==> expectedDirection && statSig
    ensures status == Warning <==> !expectedDirection && !statSig
    ensures status == Danger <==> !expectedDirection && statSig
    ensures status == NonSignificant <==> expectedDirection && !statSig
  {
    if expectedDirection && statSig then Ok
    else if !expectedDirection && !statSig then Warning
    else if !expectedDirection && statSig then Danger
    else NonSignificant
  }

  /** The (expected direction, significant) pair a status stands for. */
  function StatusInputs(status: GuardrailStatus): (bool, bool) {
    match status
    case Ok => (true, true)
    case Warning => (false, false)
    case Danger => (false, true)
    case NonSignificant => (true, false)
  }

  /** The status is a one-to-one encoding of the pair: each decodes the other. */
  lemma StatusRoundTrip(expectedDirection: bool, statSig: bool, status: GuardrailStatus)
    ensures StatusInputs(GetPValueGuardrailStatus(expectedDirection, statSig)) == (expectedDirection, statSig)
    ensures GetPValueGuardrailStatus(StatusInputs(status).0, StatusInputs(status).1) == status
  {
  }

  datatype Icon = Check | ExclamationTriangle | Exclamation | Question

  /** Each status has its own icon, so the icon shown tells the status. */
  function StatusIcon(status: GuardrailStatus): (icon: Icon)
    ensures icon == Check <==> status == Ok
    ensures icon == ExclamationTriangle <==> status == Warning
    ensures icon == Exclamation <==> status == Danger
    ensures icon == Question <==> status == NonSignificant
  {
    match status
    case Ok => Check
    case Warning => ExclamationTriangle
    case Danger => Exclamation
    case NonSignificant => Question
  }

  /** "Better" or "Worse" by direction, followed by "?" when not significant. */
  function DirectionLabel(expectedDirection: bool, statSig: bool): (text: string)
    ensures text in {"Better", "Better?", "Worse", "Worse?"}
  {
    var direction := if expectedDirection then "Better" else "Worse";
    var doubt := if statSig then "" else "?";
    assert direction + "" == direction;
    assert "Better" + "?" == "Better?" && "Worse" + "?" == "Worse?";
    direction + doubt
  }

  /** The label tells direction and significance apart: "Better" starts it iff the
      direction is expected, and "?" ends it iff the result is not significant. */
  lemma DirectionLabelDecodes(expectedDirection: bool, statSig: bool)
    ensures var text := DirectionLabel(expectedDirection, statSig);
      && (text[..5] == "Bette" <==> expectedDirection)
      && (text[|text| - 1] == '?' <==> !statSig)
  {
  }

  /** What the `<td>` holds. */
  datatype GuardrailCell =
    | Crashed
      // `stats` is undefined: reading `stats.pValueAdjusted` throws before anything renders
    | NotEnoughData(status: GuardrailStatus)
      // only the "not enough data" note; the status still names the cell's CSS class
    | Verdict(status: GuardrailStatus, icon: Icon, caption: string, pValue: real)

  /** `PValueGuardrailResults`. */
  function PValueGuardrailResults(
    stats: Option<SnapshotMetric>, metric: Option<Metric>, enoughData: bool,
    pValueThreshold: real, oracles: StatsOracles): (cell: GuardrailCell)
    ensures cell.Crashed? <==> stats.None?
    ensures stats.Some? ==> cell.status == GetPValueGuardrailStatus(
      oracles.isExpectedDirection(stats.value, metric), PValueSignificant(stats.value, pValueThreshold, oracles))
    ensures stats.Some? ==> (cell.Verdict? <==> enoughData)
    ensures cell.Verdict? ==> cell.pValue == PValueOf(stats.value) && cell.icon == StatusIcon(cell.status)
  {
    if stats.None? then Crashed
    else
      var s := stats.value;
      var expectedDirection := oracles.isExpectedDirection(s, metric);
      var statSig := oracles.isStatSig(PValueOf(s), pValueThreshold);
      var status := GetPValueGuardrailStatus(expectedDirection, statSig);
      if enoughData then
        Verdict(status, StatusIcon(status), DirectionLabel(expectedDirection, statSig), PValueOf(s))
      else NotEnoughData(status)
  }

  /** The verdict's caption agrees with its status: "Better" exactly for ok and
      non-significant, "?" exactly for warning and non-significant. */
  lemma VerdictAgreesWithStatus(
    stats: SnapshotMetric, metric: Option<Metric>, pValueThreshold: real, oracles: StatsOracles)
    ensures var cell := PValueGuardrailResults(Some(stats), metric, true, pValueThreshold, oracles);
      && cell.Verdict?
      && (cell.caption[..5] == "Bette" <==> cell.status in {Ok, NonSignificant})
      && (cell.caption[|cell.caption| - 1] == '?' <==> cell.status in {Warning, NonSignificant})
  {
    var e := oracles.isExpectedDirection(stats, metric);
    var sig := oracles.isStatSig(PValueOf(stats), pValueThreshold);
    DirectionLabelDecodes(e, sig);
  }
}

=== FILE: results_table.dfy ===
/** The decisions of the experiment results table: which rows exist, the statistics
    each row uses, its significance, which result cell, graph and change cell it shows,
    and the two header tooltips. */
module ResultsTable {
  import opened Options
  import opened ExperimentStats
  import PValueGuardrail
  import PercentGraph

  datatype StatsEngine = Bayesian | Frequentist
  datatype RowAxis = MetricAxis | DimensionAxis

  /** The table's props and organization settings that the decisions read. `statsEngine`
      already holds the default engine when the prop is missing; an absent
      `metricsAsGuardrails` is `false`. */
  datatype TableConfig = TableConfig(
    statsEngine: StatsEngine, metricsAsGuardrails: bool, hasRisk: bool,
    sequentialTestingEnabled: bool, pValueCorrection: Option<string>, showAdvanced: bool,
    ciUpper: real, ciLower: real, pValueThreshold: real,
    orgPValueThreshold: Option<real>, tableRowAxis: RowAxis)

  /** `ExperimentTableRow`: a metric (or dimension value) and one record per variation. */
  datatype TableRow = TableRow(name: string, metric: Option<Metric>, variations: seq<SnapshotMetric>)

  /** `row.variations[j] || { value: 0, cr: 0, users: 0 }`. */
  function StatsAt(variations: seq<SnapshotMetric>, j: nat): (stats: SnapshotMetric)
    ensures j < |variations| ==> stats == variations[j]
    ensures j >= |variations| ==> stats == EMPTY_STATS && stats.value == 0.0 && stats.cr == 0.0 && stats.users == 0
  {
    if j < |variations| then variations[j] else EMPTY_STATS
  }

  /** `significant`: false for the baseline (variation 0), which is never significant;
      otherwise the chance-to-win rule under the Bayesian engine and the p-value rule
      under the frequentist one. */
  predicate Significant(j: nat, stats: SnapshotMetric, config: TableConfig, oracles: StatsOracles)
    ensures Significant(j, stats, config, oracles) ==> j > 0
  {
    if j > 0 then
      if config.statsEngine == Bayesian then ChanceToWinSignificant(stats, config.ciUpper, config.ciLower)
      else PValueSignificant(stats, config.pValueThreshold, oracles)
    else false
  }

  lemma SignificanceByEngine(j: nat, stats: SnapshotMetric, config: TableConfig, oracles: StatsOracles)
    requires j > 0
    ensures config.statsEngine == Bayesian ==>
      (Significant(j, stats, config, oracles) <==>
        stats.chanceToWin.GetOr(0.0) > config.ciUpper || stats.chanceToWin.GetOr(0.0) < config.ciLower)
    ensures config.statsEngine == Frequentist ==>
      (Significant(j, stats, config, oracles) <==> oracles.isStatSig(PValueOf(stats), config.pValueThreshold))
  {
  }

  /** The `clsx` classes of a result or change cell; "non-significant" is `!significant`. */
  datatype CellClasses = CellClasses(significant: bool, positive: bool, negative: bool)

  function Classes(significant: bool, stats: SnapshotMetric): (c: CellClasses)
    ensures !(c.positive && c.negative)
    ensures c.significant == significant
    ensures c.positive <==> stats.expected.Some? && stats.expected.value > 0.0
    ensures c.negative <==> stats.expected.Some? && stats.expected.value < 0.0
  {
    CellClasses(
      significant,
      stats.expected.Some? && stats.expected.value > 0.0,
      stats.expected.Some? && stats.expected.value < 0.0)
  }

  datatype ResultCell =
    | ChanceToWinCell(classes: CellClasses)
    | GuardrailCell(enoughData: bool)
    | PValueCell(classes: CellClasses, correction: Option<string>)
    | PValueGuardrailCell(cell: PValueGuardrail.GuardrailCell)
    | BlankCell

  /** The result column: chance to win or guardrail under the Bayesian engine, p-value
      or p-value guardrail under the frequentist one. */
  function ResultCellFor(
    j: nat, row: TableRow, stats: SnapshotMetric, significant: bool, enoughData: bool,
    config: TableConfig, oracles: StatsOracles): (cell: ResultCell)
    ensures j == 0 <==> cell.BlankCell?
    ensures j > 0 ==> (cell.ChanceToWinCell? <==> config.statsEngine == Bayesian && !config.metricsAsGuardrails)
    ensures j > 0 ==> (cell.GuardrailCell? <==> config.statsEngine == Bayesian && config.metricsAsGuardrails)
    ensures j > 0 ==> (cell.PValueCell? <==> config.statsEngine == Frequentist && !config.metricsAsGuardrails)
    ensures j > 0 ==> (cell.PValueGuardrailCell? <==> config.statsEngine == Frequentist && config.metricsAsGuardrails)
  {
    if j == 0 then BlankCell
    else match config.statsEngine
      case Bayesian =>
        if !config.metricsAsGuardrails then ChanceToWinCell(Classes(significant, stats))
        else GuardrailCell(enoughData)
      case Frequentist =>
        if !config.metricsAsGuardrails then PValueCell(Classes(significant, stats), config.pValueCorrection)
        else PValueGuardrailCell(PValueGuardrail.PValueGuardrailResults(
          Some(stats), row.metric, enoughData, config.pValueThreshold, oracles))
  }

  /** The "% Change" cell: the arrow, and the interval when the advanced columns show. */
  datatype ChangeCell = ChangeCell(classes: CellClasses, arrowUp: bool, ci: Option<(real, real)>)

  function ChangeCellFor(
    j: nat, row: TableRow, stats: SnapshotMetric, significant: bool, enoughData: bool,
    config: TableConfig): (cell: Option<ChangeCell>)
    ensures cell.Some? <==> j > 0 && row.metric.Some? && enoughData
    ensures cell.Some? ==> cell.value.classes == Classes(significant, stats)
    ensures cell.Some? ==> (cell.value.ci.Some? <==> config.showAdvanced)
    ensures cell.Some? && config.showAdvanced ==>
      var ci := stats.ci.GetOr([]);
      cell.value.ci == Some((if |ci| > 0 then ci[0] else 0.0, if |ci| > 1 then ci[1] else 0.0))
  {
    if j > 0 && row.metric.Some? && enoughData then
      var ci := stats.ci.GetOr([]);
      Some(ChangeCell(
        Classes(significant, stats),
        stats.expected.GetOr(0.0) > 0.0,
        if config.showAdvanced then
          Some((if |ci| > 0 then ci[0] else 0.0, if |ci| > 1 then ci[1] else 0.0))
        else None))
    else None
  }

  /** The arrow points up exactly when the cell carries the `positive` class, so a zero
      or missing expectation shows a down arrow; `positive` and `negative` never meet. */
  lemma ArrowFollowsExpected(
    j: nat, row: TableRow, stats: SnapshotMetric, significant: bool, enoughData: bool, config: TableConfig)
    requires ChangeCellFor(j, row, stats, significant, enoughData, config).Some?
    ensures var cell := ChangeCellFor(j, row, stats, significant, enoughData, config).value;
      && (cell.arrowUp <==> cell.classes.positive)
      && (cell.arrowUp <==> stats.expected.Some? && stats.expected.value > 0.0)
      && !(cell.classes.positive && cell.classes.negative)
      && (cell.ci.Some? <==> config.showAdvanced)
  {
  }

  /** One variation's row of a table row group. */
  datatype VariationRow = VariationRow(
    index: nat, stats: SnapshotMetric, significant: bool, enoughData: bool,
    baselineValueRowSpan: Option<int>, showValue: bool,
    result: ResultCell, graph: PercentGraph.GraphProps, change: Option<ChangeCell>)

  /** The cells of variation `j`'s row: blank result and no change cell for the baseline,
      the baseline value spanning the other rows beside the first variation, and a pill
      graph under the frequentist engine. */
  function VariationRowFor(row: TableRow, j: nat, config: TableConfig, oracles: StatsOracles): (r: VariationRow)
    ensures r.index == j && r.stats == StatsAt(row.variations, j)
    ensures r.significant ==> j > 0
    ensures r.result.BlankCell? <==> j == 0
    ensures r.change.Some? <==> j > 0 && row.metric.Some? && r.enoughData
    ensures r.baselineValueRowSpan.Some? <==> config.showAdvanced && j == 1
    ensures r.baselineValueRowSpan.Some? ==> r.baselineValueRowSpan.value == |row.variations| - 1
    ensures r.showValue == config.showAdvanced
    ensures r.graph.newUi
    ensures config.statsEngine == Frequentist ==> r.graph.barType == PercentGraph.Pill
  {
    var baseline := StatsAt(row.variations, 0);
    var stats := StatsAt(row.variations, j);
    var significant := Significant(j, stats, config, oracles);
    var enoughData := oracles.hasEnoughData(baseline, stats, row.metric);
    VariationRow(
      j, stats, significant, enoughData,
      // the baseline's value is drawn once, beside the first variation, spanning the others
      if config.showAdvanced && j == 1 then Some(|row.variations| - 1) else None,
      config.showAdvanced,
      ResultCellFor(j, row, stats, significant, enoughData, config, oracles),
      PercentGraph.PercentGraphProps(
        row.metric, baseline, stats,
        if config.statsEngine == Frequentist then Some(PercentGraph.Pill) else None,
        true, config.ciUpper, config.ciLower, config.pValueThreshold, oracles),
      ChangeCellFor(j, row, stats, significant, enoughData, config))
  }

  /** `variations.map(...)` for one table row: `None` where the map returns `null`. */
  function RowVariations(row: TableRow, variationCount: nat, config: TableConfig, oracles: StatsOracles)
    : (cells: seq<Option<VariationRow>>)
    ensures |cells| == variationCount
    ensures forall j :: 0 <= j < variationCount ==> (cells[j].None? <==> j == 0)
    ensures forall j :: 0 < j < variationCount ==>
      cells[j].value.index == j && cells[j].value.stats == StatsAt(row.variations, j)
  {
    seq(variationCount, j requires 0 <= j < variationCount =>
      if j == 0 then None  // the baseline has no row of its own
      else Some(VariationRowFor(row, j, config, oracles)))
  }

  /** Every emitted row belongs to a variation other than the baseline, compares against
      the baseline's record (or the empty record) and never shows a blank result cell. */
  lemma EmittedRowsAreVariations(
    row: TableRow, variationCount: nat, config: TableConfig, oracles: StatsOracles, j: nat)
    requires 0 < j < variationCount
    ensures var r := RowVariations(row, variationCount, config, oracles)[j].value;
      && !r.result.BlankCell?
      && r.enoughData == oracles.hasEnoughData(StatsAt(row.variations, 0), StatsAt(row.variations, j), row.metric)
      && (r.change.Some? <==> row.metric.Some? && r.enoughData)
      && (r.baselineValueRowSpan.Some? <==> config.showAdvanced && j == 1)
  {
  }

  /** The graph of a Bayesian row is a violin only when the record has an uplift
      distribution; without one it is a new-UI pill and takes the p-value rule,
      not the chance-to-win rule of the row. */
  lemma BayesianPillGraphUsesPValue(
    row: TableRow, j: nat, config: TableConfig, oracles: StatsOracles, m: Metric)
    requires j > 0 && config.statsEngine == Bayesian && row.metric == Some(m)
    requires var stats := StatsAt(row.variations, j);
      oracles.hasEnoughData(StatsAt(row.variations, 0), stats, row.metric) &&
      (stats.uplift.None? || stats.uplift.value.dist == "")
    ensures var r := VariationRowFor(row, j, config, oracles);
      && r.graph.barType == PercentGraph.Pill
      && (r.graph.significant <==> PValueSignificant(r.stats, config.pValueThreshold, oracles))
      && (r.significant <==> ChanceToWinSignificant(r.stats, config.ciUpper, config.ciLower))
  {
    var stats := StatsAt(row.variations, j);
    PercentGraph.SignificanceRule(m, StatsAt(row.variations, 0), stats, None, true,
      config.ciUpper, config.ciLower, config.pValueThreshold, oracles);
  }

  /** The whole body: one list of variation rows per table row. */
  function TableBody(rows: seq<TableRow>, variationCount: nat, config: TableConfig, oracles: StatsOracles)
    : (body: seq<seq<Option<VariationRow>>>)
    ensures |body| == |rows|
    ensures forall i :: 0 <= i < |rows| ==> body[i] == RowVariations(rows[i], variationCount, config, oracles)
  {
    seq(|rows|, i requires 0 <= i < |rows| => RowVariations(rows[i], variationCount, config, oracles))
  }

  // ---------------------------------------------------------------------------
  // Header and tooltips

  /** The paragraphs of the "% Change" tooltip. */
  datatype ChangeNote = CredibleInterval | ConfidenceInterval | SequentialIntervals | IntervalsNotAdjusted

  function PercentChangeTooltip(
    statsEngine: StatsEngine, hasRisk: bool, sequentialTestingEnabled: bool,
    pValueCorrection: Option<string>): (notes: seq<ChangeNote>)
    ensures hasRisk && statsEngine == Bayesian ==> notes == [CredibleInterval]
    ensures statsEngine == Frequentist ==>
      && |notes| == 1 + (if sequentialTestingEnabled then 1 else 0) + (if Truthy(pValueCorrection) then 1 else 0)
      && notes[0] == ConfidenceInterval
      && (sequentialTestingEnabled ==> notes[1] == SequentialIntervals)
      && (Truthy(pValueCorrection) ==> notes[|notes| - 1] == IntervalsNotAdjusted)
      && CredibleInterval !in notes
      && (SequentialIntervals in notes <==> sequentialTestingEnabled)
      && (IntervalsNotAdjusted in notes <==> Truthy(pValueCorrection))
    ensures !hasRisk && statsEngine == Bayesian ==> notes == []
  {
    if hasRisk && statsEngine == Bayesian then [CredibleInterval]
    else if statsEngine == Frequentist then
      [ConfidenceInterval]
      + (if sequentialTestingEnabled then [SequentialIntervals] else [])
      + (if Truthy(pValueCorrection) then [IntervalsNotAdjusted] else [])
    else []
  }

  /** Which tests the p-values were adjusted across. */
  datatype AdjustmentScope = DimensionsMetricsAndVariations | MetricsAndVariations

  datatype PValueNote =
    | SequentialNote(threshold: real, spaced: bool)
    | CorrectionNote(correction: string, scope: AdjustmentScope)

  function ScopeOf(tableRowAxis: RowAxis): AdjustmentScope {
    if tableRowAxis == DimensionAxis then DimensionsMetricsAndVariations else MetricsAndVariations
  }

  function PValueTooltip(
    sequentialTestingEnabled: bool, pValueCorrection: Option<string>,
    pValueThreshold: real, tableRowAxis: RowAxis): (notes: seq<PValueNote>)
    ensures |notes| == (if sequentialTestingEnabled then 1 else 0) + (if Truthy(pValueCorrection) then 1 else 0)
    // the sequential-testing note comes first and is set apart when a correction note follows
    ensures sequentialTestingEnabled ==>
      notes[0] == SequentialNote(pValueThreshold, Truthy(pValueCorrection))
    // the correction note names the method and, for dimension rows, counts the dimensions too
    ensures Truthy(pValueCorrection) ==>
      && notes[|notes| - 1].CorrectionNote?
      && notes[|notes| - 1].correction == pValueCorrection.value
      && (notes[|notes| - 1].scope == DimensionsMetricsAndVariations <==> tableRowAxis == DimensionAxis)
  {
    var corrected := Truthy(pValueCorrection);
    var sequential := SequentialNote(pValueThreshold, corrected);
    if sequentialTestingEnabled && corrected then
      [sequential, CorrectionNote(pValueCorrection.value, ScopeOf(tableRowAxis))]
    else if sequentialTestingEnabled then [sequential]
    else if corrected then [CorrectionNote(pValueCorrection.value, ScopeOf(tableRowAxis))]
    else []
  }

  datatype ResultHeader =
    | ChanceToWinHeader
    | ChanceOfBeingWorseHeader
    | PValueHeader(tooltip: Option<seq<PValueNote>>)

  /** The result column's header; the p-value tooltip uses the organization's threshold,
      0.05 when unset. */
  function ResultHeaderFor(config: TableConfig): (header: ResultHeader)
    ensures header == ChanceToWinHeader <==> config.statsEngine == Bayesian && !config.metricsAsGuardrails
    ensures header == ChanceOfBeingWorseHeader <==> config.statsEngine == Bayesian && config.metricsAsGuardrails
    ensures header.PValueHeader? ==>
      (header.tooltip.Some? <==> config.sequentialTestingEnabled || Truthy(config.pValueCorrection))
    ensures header.PValueHeader? && header.tooltip.Some? ==>
      header.tooltip.value == PValueTooltip(config.sequentialTestingEnabled, config.pValueCorrection,
                                            config.orgPValueThreshold.GetOr(0.05), config.tableRowAxis)
  {
    if config.statsEngine == Bayesian then
      if !config.metricsAsGuardrails then ChanceToWinHeader else ChanceOfBeingWorseHeader
    else if config.sequentialTestingEnabled || Truthy(config.pValueCorrection) then
      PValueHeader(Some(PValueTooltip(
        config.sequentialTestingEnabled, config.pValueCorrection,
        config.orgPValueThreshold.GetOr(0.05), config.tableRowAxis)))
    else PValueHeader(None)
  }

  /** The header and the row cells agree on the kind of result shown. */
  lemma HeaderMatchesCells(
    row: TableRow, j: nat, config: TableConfig, oracles: StatsOracles)
    requires j > 0
    ensures var r := VariationRowFor(row, j, config, oracles);
      var header := ResultHeaderFor(config);
      && (header == ChanceToWinHeader <==> r.result.ChanceToWinCell?)
      && (header == ChanceOfBeingWorseHeader <==> r.result.GuardrailCell?)
      && (header.PValueHeader? <==> r.result.PValueCell? || r.result.PValueGuardrailCell?)
  {
  }
}

=== FILE: user_context.dfy ===
/** The front-end user context: the users map, the current user with its fallback,
    role resolution, the backwards-compatible permission flags, the environment-scoped
    permission check and the user display name. */
module UserContext {
  import opened Options
  import opened Lists
  import opened Organization

  /** The flags every user starts with: each global permission, all false. */
  const DEFAULT_PERMISSIONS: map<Permission, bool> := map[
    CreateDimensions := false, CreatePresentations := false, CreateSegments := false,
    ManageApiKeys := false, ManageBilling := false, ManageNamespaces := false,
    ManageNorthStarMetric := false, ManageSavedGroups := false, ManageTags := false,
    ManageTargetingAttributes := false, ManageTeam := false, ManageWebhooks := false,
    ManageIntegrations := false, OrganizationSettings := false, SuperDelete := false,
    ViewEvents := false]

  /** The default flags are keyed by exactly the global permissions and are all false. */
  lemma DefaultPermissionsAreGlobalAndOff()
    ensures DEFAULT_PERMISSIONS.Keys == set p | p in GLOBAL_PERMISSIONS
    ensures forall p :: p in DEFAULT_PERMISSIONS ==> !DEFAULT_PERMISSIONS[p]
  {
  }

  /** `/user`: who is signed in. */
  datatype UserResponse = UserResponse(
    status: int, userId: string, userName: string, email: string, verified: bool, admin: bool)

  /** One entry of a member's permission tree. */
  datatype EnvGrant = EnvGrant(hasPermission: bool, limitAccessByEnvironment: bool, environments: seq<string>)

  /** `ExpandedMember.permissions`; `{}` (the fallback user's) has neither part. */
  datatype PermissionTree = PermissionTree(
    global: Option<map<Permission, EnvGrant>>,
    projects: Option<map<string, map<Permission, EnvGrant>>>)

  datatype ExpandedMember = ExpandedMember(
    id: string, name: string, email: string, verified: bool, role: MemberRole,
    environments: seq<string>, limitAccessByEnvironment: bool,
    projectRoles: seq<ProjectRole>, permissions: PermissionTree)

  /** `/organization`: the parts of the response the context reads. */
  datatype OrgResponse = OrgResponse(
    organization: OrganizationInterface, members: seq<ExpandedMember>, roles: seq<Role>)

  // ---------------------------------------------------------------------------
  // Roles and the flags object

  /** The set of the first role with that id; empty when none matches or no role is known. */
  function GetPermissionsByRole(role: Option<MemberRole>, roles: seq<Role>): (ps: set<Permission>)
    ensures role.None? ==> ps == {}
    ensures role.Some? && (forall i :: 0 <= i < |roles| ==> roles[i].id != role.value) ==> ps == {}
    ensures forall p :: p in ps ==> exists i :: 0 <= i < |roles| && p in roles[i].permissions
  {
    match role
    case None => {}
    case Some(id) =>
      match FindRole(roles, id)
      case Some(r) => set p | p in r.permissions
      case None => {}
  }

  /** The first role carrying the id decides the set, whatever later roles say. */
  lemma FirstMatchingRoleDecides(role: MemberRole, roles: seq<Role>, k: nat)
    requires k < |roles| && roles[k].id == role
    requires forall j :: 0 <= j < k ==> roles[j].id != role
    ensures forall p :: p in GetPermissionsByRole(Some(role), roles) <==> p in roles[k].permissions
  {
    FindRoleAt(roles, role, k);
  }

  /** The flags after granting a set on top of `base`: the base keys plus the granted
      ones, true for the granted ones and as in `base` elsewhere. */
  function Granting(base: map<Permission, bool>, granted: set<Permission>): map<Permission, bool> {
    map p | p in base.Keys + granted :: if p in granted then true else base[p]
  }

  /** Granting nothing leaves the flags as they are. */
  lemma NoGrantsKeepFlags(base: map<Permission, bool>)
    ensures Granting(base, {}) == base
  {
  }

  /** Setting one more flag to true is granting one more permission. */
  lemma GrantOneMore(base: map<Permission, bool>, granted: set<Permission>, p: Permission)
    ensures Granting(base, granted)[p := true] == Granting(base, granted + {p})
  {
  }

  /** `permissions.forEach((p) => flags[p] = true)` over a copy of `base`. */
  method GrantAll(base: map<Permission, bool>, granted: set<Permission>) returns (flags: map<Permission, bool>)
    ensures flags == Granting(base, granted)
  {
    flags := base;
    NoGrantsKeepFlags(base);
    var done: set<Permission> := {};
    var todo := granted;
    while todo != {}
      invariant done + todo == granted
      invariant flags == Granting(base, done)
      decreases todo
    {
      var p :| p in todo;
      GrantOneMore(base, done, p);
      flags := flags[p := true];
      done := done + {p};
      todo := todo - {p};
    }
  }

  /** `permissionsObj`: copy the defaults, then set every permission of the role. */
  method BuildPermissionsObj(role: Option<MemberRole>, roles: seq<Role>) returns (flags: map<Permission, bool>)
    ensures flags == Granting(DEFAULT_PERMISSIONS, GetPermissionsByRole(role, roles))
  {
    flags := GrantAll(DEFAULT_PERMISSIONS, GetPermissionsByRole(role, roles));
  }

  /** Each global flag is on exactly when the role grants it; granted permissions outside
      the global list are added as keys too, set to true. */
  lemma PermissionFlagsFollowRole(role: Option<MemberRole>, roles: seq<Role>, p: Permission)
    ensures var flags := Granting(DEFAULT_PERMISSIONS, GetPermissionsByRole(role, roles));
      && (p in GLOBAL_PERMISSIONS ==> p in flags && (flags[p] <==> p in GetPermissionsByRole(role, roles)))
      && (p in flags <==> p in GLOBAL_PERMISSIONS || p in GetPermissionsByRole(role, roles))
  {
    DefaultPermissionsAreGlobalAndOff();
  }

  /** The role used for the flags: admin for an admin, else the user's role, else the
      organization's default role. */
  function ResolveRole(data: Option<UserResponse>, user: Option<ExpandedMember>, currentOrg: Option<OrgResponse>)
    : (role: Option<MemberRole>)
    ensures data.Some? && data.value.admin ==> role == Some(Admin)
    ensures !(data.Some? && data.value.admin) && user.Some? ==> role == Some(user.value.role)
    ensures !(data.Some? && data.value.admin) && user.None? ==>
      role == (if currentOrg.Some? then DefaultRoleSetting(currentOrg.value.organization) else None)
  {
    if data.Some? && data.value.admin then Some(Admin)
    else if user.Some? then Some(user.value.role)
    else if currentOrg.Some? then DefaultRoleSetting(currentOrg.value.organization)
    else None
  }

  /** `organization.settings?.defaultRole?.role`: the back end's default role when one is
      configured; nothing (so no permissions) where the back end would fall back to a
      collaborator. */
  function DefaultRoleSetting(organization: OrganizationInterface): (role: Option<MemberRole>)
    ensures role.Some? ==> role.value == GetDefaultRole(organization).role
    ensures role.Some? <==> organization.settings.Some? && organization.settings.value.defaultRole.Some?
    ensures role.None? ==> GetDefaultRole(organization) == MemberRoleInfo(Collaborator, false, [])
  {
    if organization.settings.Some? && organization.settings.value.defaultRole.Some? then
      Some(organization.settings.value.defaultRole.value.role)
    else None
  }

  // ---------------------------------------------------------------------------
  // Users

  function MemberId(m: ExpandedMember): string { m.id }
  function Itself(m: ExpandedMember): ExpandedMember { m }

  /** The users map the `forEach` fills: each member under its id, later members replacing earlier ones. */
  function UsersOf(currentOrg: Option<OrgResponse>): map<string, ExpandedMember> {
    if currentOrg.None? then map[] else AssignAll(currentOrg.value.members, MemberId, Itself)
  }

  method BuildUsersMap(currentOrg: Option<OrgResponse>) returns (users: map<string, ExpandedMember>)
    ensures users == UsersOf(currentOrg)
  {
    users := map[];
    if currentOrg.None? {
      return;
    }
    var members := currentOrg.value.members;
    for i := 0 to |members|
      invariant users == AssignAll(members[..i], MemberId, Itself)
    {
      AssignAllStep(members, i, MemberId, Itself);
      users := users[members[i].id := members[i]];
    }
    assert members[..|members|] == members;
  }

  /** The map holds every member id and, under it, the last member with that id. */
  lemma UsersKeepLastMemberPerId(org: OrgResponse, i: nat)
    requires i < |org.members|
    requires forall j :: i < j < |org.members| ==> org.members[j].id != org.members[i].id
    ensures UsersOf(Some(org)).Keys == set k | 0 <= k < |org.members| :: org.members[k].id
    ensures org.members[i].id in UsersOf(Some(org)) && UsersOf(Some(org))[org.members[i].id] == org.members[i]
  {
    AssignAllKeys(org.members, MemberId, Itself);
    AssignAllLast(org.members, i, MemberId, Itself);
  }

  /** The member standing in for a signed-in user the members list does not hold. */
  function FallbackUser(data: UserResponse): (user: ExpandedMember)
    ensures user.id == data.userId && user.name == data.userName && user.email == data.email
    ensures user.role == (if data.admin then Admin else Readonly)
    ensures user.projectRoles == [] && user.environments == [] && !user.limitAccessByEnvironment
    ensures user.permissions == PermissionTree(None, None)
  {
    ExpandedMember(data.userId, data.userName, data.email, data.verified,
      if data.admin then Admin else Readonly, [], false, [], PermissionTree(None, None))
  }

  /** `user`: the signed-in member, or the fallback when the list lacks them; none before `/user` answers. */
  function ResolveUser(data: Option<UserResponse>, users: map<string, ExpandedMember>): (user: Option<ExpandedMember>)
    ensures user.None? <==> data.None?
    ensures data.Some? && data.value.userId in users ==> user == Some(users[data.value.userId])
    ensures data.Some? && data.value.userId !in users ==> user == Some(FallbackUser(data.value))
  {
    match data
    case None => None
    case Some(d) => if d.userId in users then Some(users[d.userId]) else Some(FallbackUser(d))
  }

  /** A signed-in user the list lacks resolves to admin or readonly by the admin flag. */
  lemma UnlistedUserRole(data: UserResponse, users: map<string, ExpandedMember>, currentOrg: Option<OrgResponse>)
    requires data.userId !in users
    ensures ResolveRole(Some(data), ResolveUser(Some(data), users), currentOrg)
         == Some(if data.admin then Admin else Readonly)
  {
  }

  // ---------------------------------------------------------------------------
  // The permission check

  /** `environments.some((e) => envs.includes(e))`. */
  function AnyShared(environments: seq<string>, envs: seq<string>): (shared: bool)
    ensures shared <==> exists i :: 0 <= i < |environments| && environments[i] in envs
  {
    if environments == [] then false
    else if environments[0] in envs then true
    else
      var rest := AnyShared(environments[1..], envs);
      if !rest then
        assert forall i :: 1 <= i < |environments| ==> environments[i] == environments[1..][i - 1];
        rest
      else
        ghost var i :| 0 <= i < |environments[1..]| && environments[1..][i] in envs;
        assert environments[i + 1] in envs;
        rest
  }

  /** A grant allows the action: held, and either no environments were asked about,
      the grant is not limited, or it shares an environment with the ones asked about. */
  predicate GrantAllows(g: EnvGrant, envs: Option<seq<string>>) {
    g.hasPermission &&
    (envs.None? || !g.limitAccessByEnvironment ||
     exists e :: e in g.environments && e in envs.value)
  }

  /** The check's outcome; reading through a missing map throws a TypeError. */
  datatype CheckOutcome = Returns(allowed: bool) | Throws

  /** `permissionsCheck(permission, project, envs)` for the current user. */
  function PermissionsCheck(
    user: Option<ExpandedMember>, permission: Permission, project: Option<string>, envs: Option<seq<string>>)
    : (r: CheckOutcome)
    ensures user.None? || user.value.permissions.global.None? ==> r == Throws
    ensures user.Some? && user.value.permissions.global.Some? && permission !in user.value.permissions.global.value
      ==> r == Throws
    ensures r == Returns(true) ==>
      GrantAllows(user.value.permissions.global.value[permission], envs) ||
      (Truthy(project) && user.value.permissions.projects.Some? &&
       project.value in user.value.permissions.projects.value &&
       permission in user.value.permissions.projects.value[project.value] &&
       GrantAllows(user.value.permissions.projects.value[project.value][permission], envs))
    ensures (user.Some? && user.value.permissions.global.Some? && permission in user.value.permissions.global.value &&
             GrantAllows(user.value.permissions.global.value[permission], envs)) ==> r == Returns(true)
    ensures (user.Some? && user.value.permissions.global.Some? && permission in user.value.permissions.global.value &&
             !GrantAllows(user.value.permissions.global.value[permission], envs) && Truthy(project)) ==>
      && (user.value.permissions.projects.None? ==> r == Throws)
      && ((user.value.permissions.projects.Some? && project.value in user.value.permissions.projects.value &&
           permission !in user.value.permissions.projects.value[project.value]) ==> r == Throws)
  {
    if user.None? || user.value.permissions.global.None? then Throws
    else
      var globalPermissions := user.value.permissions.global.value;
      if permission !in globalPermissions then Throws
      else
        var g := globalPermissions[permission];
        if g.hasPermission && (envs.None? || !g.limitAccessByEnvironment || AnyShared(g.environments, envs.value)) then
          Returns(true)
        else if Truthy(project) then
          var projectPermissions := user.value.permissions.projects;
          if projectPermissions.None? then Throws
          else if project.value !in projectPermissions.value then Returns(false)
          else
            var projectToCheck := projectPermissions.value[project.value];
            if permission !in projectToCheck then Throws
            else
              var pg := projectToCheck[permission];
              Returns(pg.hasPermission && (envs.None? || !pg.limitAccessByEnvironment || AnyShared(pg.environments, envs.value)))
        else Returns(false)
  }

  /** Whenever the maps it reads are present, the check answers whether the global grant,
      or (for a truthy project the user has an entry for) the project grant, allows it. */
  lemma CheckIsGlobalOrProjectGrant(
    user: ExpandedMember, permission: Permission, project: Option<string>, envs: Option<seq<string>>)
    requires user.permissions.global.Some? && permission in user.permissions.global.value
    requires Truthy(project) ==> user.permissions.projects.Some?
    requires Truthy(project) && project.value in user.permissions.projects.value ==>
      permission in user.permissions.projects.value[project.value]
    ensures PermissionsCheck(Some(user), permission, project, envs) == Returns(
      GrantAllows(user.permissions.global.value[permission], envs) ||
      (Truthy(project) && project.value in user.permissions.projects.value &&
       GrantAllows(user.permissions.projects.value[project.value][permission], envs)))
  {
  }

  /** Asking about no environments at all (`envs = []`) never satisfies a limited grant. */
  lemma EmptyEnvsNeverMatchLimitedGrant(g: EnvGrant)
    requires g.limitAccessByEnvironment
    ensures !GrantAllows(g, Some([]))
    ensures AnyShared(g.environments, []) == false
  {
  }

  /** Without `envs`, a held global grant suffices, limited or not. */
  lemma HeldGlobalGrantWithoutEnvs(user: ExpandedMember, permission: Permission, project: Option<string>)
    requires user.permissions.global.Some? && permission in user.permissions.global.value
    requires user.permissions.global.value[permission].hasPermission
    ensures PermissionsCheck(Some(user), permission, project, None) == Returns(true)
  {
  }

  /** The fallback user has no permission tree, so every check on it throws. */
  lemma FallbackUserCheckThrows(
    data: UserResponse, users: map<string, ExpandedMember>,
    permission: Permission, project: Option<string>, envs: Option<seq<string>>)
    requires data.userId !in users
    ensures PermissionsCheck(ResolveUser(Some(data), users), permission, project, envs) == Throws
  {
  }

  // ---------------------------------------------------------------------------
  // Display names

  /** `getUserDisplay(id, fallback = true)`: the member's name, else their email; an
      unknown id is shown as itself when falling back and as nothing otherwise. */
  function GetUserDisplay(users: map<string, ExpandedMember>, id: string, fallback: Option<bool>): (shown: Option<string>)
    ensures shown.None? <==> id !in users && fallback == Some(false)
    ensures id !in users && fallback != Some(false) ==> shown == Some(id)
    ensures id in users ==> (shown.Some? &&
      (users[id].name != "" ==> shown.value == users[id].name) &&
      (users[id].name == "" ==> shown.value == users[id].email))
  {
    if id !in users then
      if fallback.GetOr(true) then Some(id) else None
    else
      var u := users[id];
      Some(if u.name != "" then u.name else u.email)
  }

  /** A listed member is displayed by the name (or email) of the last member with that id. */
  lemma ListedMemberDisplay(org: OrgResponse, i: nat, fallback: Option<bool>)
    requires i < |org.members|
    requires forall j :: i < j < |org.members| ==> org.members[j].id != org.members[i].id
    ensures var m := org.members[i];
      GetUserDisplay(UsersOf(Some(org)), m.id, fallback) == Some(if m.name != "" then m.name else m.email)
  {
    UsersKeepLastMemberPerId(org, i);
  }
}
